=== FILE: README.md ===
# grotbutton firmware: a Dafny model

This project models the control core of the grotbutton firmware
(`src/main.cpp`). The firmware runs an ESP32-C3 button that either serves a
captive configuration portal or joins a saved Wi-Fi network. Once joined, it
fires an HTTP webhook for every press and sleeps after a minute of
inactivity.

The model covers:

- the button interrupt with its 300 ms debounce on the wrapping 32-bit
  millisecond clock;
- one pass of `loop()` in each branch: the connected branch drains one press
  and then decides on sleep, and the portal branch never sleeps and restarts
  once a configuration is saved;
- `setup`: wake handling, configuration load, and the choice between station
  and access point;
- the `setupWiFi` retry protocol, with delays counted in milliseconds;
- `handleSave` and the save/load round trip through the key–value store;
- the request `sendWebhookRequest` builds: the empty-URL skip, the
  line-oriented header parser, and the GET/POST choice;
- `escapeJsonString`, with a decoder for section 7 of RFC 8259 as its inverse.

Modules, one per component:

| file | module | contents |
|---|---|---|
| optional.dfy | `Optional` | `Option` |
| clock.dfy | `Clock` | `millis()` readings and unsigned elapsed time |
| text.dfy | `Text` | Arduino `String` operations: `trim`, `indexOf`, `equalsIgnoreCase` |
| headers.dfy | `Headers` | the meaning of the header text: split at line feeds, one header per line |
| header_parser.dfy | `HeaderParser` | the firmware's parsing loop, proved to compute that meaning |
| json_escape.dfy | `JsonEscape` | `escapeJsonString` and its decoder |
| settings.dfy | `Settings` | configuration, store, form, load and persist |
| webhook.dfy | `Webhook` | the request a dispatch sends |
| connectivity.dfy | `Connectivity` | `setupWiFi`'s retry loop |
| device.dfy | `Device` | state, interrupt, loop passes, save handler, boot, runs of events |

Inputs that the hardware supplies become parameters:

- `millis()` readings;
- `WiFi.status()` readings, as an oracle `up(cycle, polls)` in the retry loop
  and as booleans in `loop()`;
- the wake cause;
- the button level at boot;
- the portal request being served.

Deep sleep and `ESP.restart` end a run and are reported as `Sleeping` or
`Restarting`. A restart or wake is then a new `Boot` from the store.

Firmware behaviour worth noting:

- Loading trims only the SSID, the password and the webhook URL. The method,
  headers and payload are used as stored.
- The method is free text. Exactly the texts equal to "POST" up to letter case
  give a POST. Everything else gives a GET, including the empty text a form
  without a method field stores.
- The debounce accepts an edge only when strictly more than 300 ms have passed
  since the last counted press. The last-press time starts at 0, so an edge within
  300 ms of clock reading 0 would be ignored. That cannot happen in practice,
  because the interrupt is attached only after `setup`'s one-second delay. The
  debounce examples therefore use readings after 1000 ms.
- The worst-case blocking time of `setupWiFi`'s retry loop
  (src/main.cpp:262-320) is exactly 39,100 ms of `delay`. The fallback to
  `setupAP` after the loop adds that function's own delays.

## Model

| member | source | states |
|---|---|---|
| Clock.Elapsed | src/main.cpp:200 | `now - since` on `unsigned long` is the unique 0 ≤ d < 2^32 with since + d ≡ now (mod 2^32); it equals `now - since` without wrap and `now + 2^32 - since` across the wrap |
| Clock.ElapsedUnique | src/main.cpp:247 | no other reading has that wrap-around property, so elapsed time is well defined across the 49.7-day wrap |
| Text.Trim | src/main.cpp:579 | the trimmed text has no whitespace at either end and is no longer than the input |
| Text.TrimSlice | src/main.cpp:579 | trim keeps one contiguous piece of the input, and everything it cuts away on either side is whitespace |
| Text.TrimUnique | src/main.cpp:579 | any trimmed slice with only whitespace on both sides is exactly the result of trim, so trim is fully specified by TrimSlice |
| Text.TrimIdempotent | src/main.cpp:479-484 | trimming twice gives the same as trimming once |
| Text.TrimRange | src/main.cpp:578-579 | trimming `substring(lo, hi)` is the same as moving the two ends inward within the whole text |
| Text.IndexOf | src/main.cpp:576 | `indexOf(c, from)` gives either -1 or a position at or after `from`, inside the text, that holds `c` |
| Text.IndexOfFirstHit | src/main.cpp:576 | `indexOf(c, from)` returns the first occurrence at or after `from`: no earlier position holds `c`, and -1 means none does |
| Text.IndexOfSlice | src/main.cpp:581 | searching a substring is searching the whole text from the same place, with hits at or past the substring's end counting as none |
| Text.EqualsIgnoreCase | src/main.cpp:596 | `equalsIgnoreCase` holds exactly when the lengths agree and every byte agrees after C `tolower` |
| Text.ToLowerCaseless | src/main.cpp:596 | two bytes agree after C `tolower` exactly when they are equal or are the upper- and lower-case forms of one letter |
| Headers.LineHeader | src/main.cpp:578-590 | the header a line yields has a trimmed name and a trimmed value |
| Headers.JoinSplit | src/main.cpp:575-591 | cutting the header text at line feeds loses nothing: joining the pieces with line feeds rebuilds it |
| Headers.SplitPiecesClean | src/main.cpp:576-578 | no piece between line feeds holds a line feed |
| Headers.HeaderFromTrimmed | src/main.cpp:579-588 | a trimmed line with its first colon past index 0 gives the header named by the trimmed text before that colon, valued by the trimmed text after it |
| Headers.NoHeaderFromTrimmed | src/main.cpp:580-582 | a line that trims to nothing, has no colon, or starts with a colon gives no header |
| Headers.LineHeaderWhen | src/main.cpp:580-582 | a line gives a header exactly when its trimmed text holds a colon and does not start with one |
| Headers.LineHeaderWellFormed | src/main.cpp:583-587 | every header added has a non-empty, trimmed, colon-free name and a trimmed value |
| Headers.HeadersWellFormed | src/main.cpp:575-592 | every header collected from any sequence of lines is well formed |
| Headers.HeadersOfAppend | src/main.cpp:587 | headers are collected in line order: the headers of two runs of lines are those of the first followed by those of the second |
| Headers.ParsedHeadersSingleLine | src/main.cpp:576-587 | no header name or value contains a line feed |
| HeaderParser.ParseLine | src/main.cpp:578-590 | the loop body (trim, skip empty, first colon, keep if past index 0, trim both sides) gives exactly the header the line's positions determine |
| HeaderParser.ParseHeaders | src/main.cpp:573-592 | the `lineStart`/`lineEnd` walk adds exactly the headers of the pieces between line feeds, in order |
| HeaderParser.NextLine | src/main.cpp:576-591 | reading the line up to the next line feed (or the end) leaves exactly the lines of the text after that line feed |
| HeaderParser.SplitLines | src/main.cpp:574-577 | the lines the walk visits are the pieces between line feeds, except one empty piece after a final line feed (or of an empty text) that the walk never reads |
| HeaderParser.LinesFromHeaders | src/main.cpp:574-592 | the lines the walk visits give the same headers as the split text: the one piece it skips is empty and gives no header |
| Headers.CollectAppend | src/main.cpp:587 | collecting per-line results keeps line order across two runs of lines |
| HeaderParser.SampleHeaders | src/main.cpp:573-592 | "Via: x\nnone\n Tag : 1 " gives Via: x and Tag: 1; the colon-less line is dropped and the padding is trimmed |
| JsonEscape.EscapeByte | src/main.cpp:532-549 | each byte becomes 1, 2 or 6 printable characters: itself exactly when printable and neither quote nor backslash, a backslash escape otherwise, six characters exactly for control bytes without a short escape, and those six are `\u00` followed by the byte's value in two lower-case hex digits, as `%04x` writes it |
| JsonEscape.EscapeJson | src/main.cpp:527-554 | the escaped text is all printable ASCII, and between 1 and 6 times as long as the input |
| JsonEscape.EscapeJsonAppend | src/main.cpp:531-551 | every byte is escaped independently and the escapes appear in input order |
| JsonEscape.UnescapeEscape | src/main.cpp:527-554 | decoding the escaped text as a JSON string body (section 7 of RFC 8259) gives back the input |
| JsonEscape.EscapeJsonInjective | src/main.cpp:527-554 | two different inputs never escape to the same text |
| Settings.GetStringPut | src/main.cpp:491-496 | after `putString(k, v)`, `getString` of `k` reads `v` whatever the default, and every other key reads as before |
| Settings.Load | src/main.cpp:162-172 | SSID, password and URL are each the trim of their stored value, or empty when the key is absent. The method is the stored value, or "GET" when absent. Headers and payload are the stored values, or empty when absent |
| Settings.SaveForm | src/main.cpp:469-484 | a form is accepted exactly when it has ssid, password and webhook fields. Each accepted field is the trim of the submitted field, and an optional field the form lacks is empty |
| Settings.Persist | src/main.cpp:491-496 | saving adds exactly the six keys and leaves every other stored key untouched |
| Settings.LoadPersist | src/main.cpp:162-172 | loading after persisting returns the configuration field for field, whenever SSID, password and URL are trimmed (byte strings without NUL, see Left out) |
| Settings.SaveThenLoad | src/main.cpp:479-496 | every configuration the form accepts survives a save and a reload unchanged (byte strings without NUL, see Left out) |
| Settings.LoadEmpty | src/main.cpp:162-167 | an empty store loads empty credentials, URL, headers and payload, and the method "GET" |
| Settings.PersistOverwrites | src/main.cpp:491-496 | a later save leaves no trace of an earlier one |
| Settings.SaveWithoutMethod | src/main.cpp:474 | a form without a method field stores the empty method, not "GET" |
| Webhook.ChooseMethod | src/main.cpp:596-604 | POST with the payload exactly when the method text lower-cases to "post", otherwise GET |
| Webhook.BuildRequest | src/main.cpp:556-604 | no request exactly when the URL is empty; otherwise a request to that URL with the parsed headers, a POST exactly when the method equals "POST" ignoring case, and a POST carries the stored payload |
| Webhook.PrepareRequest | src/main.cpp:560-604 | the firmware's sequence (URL check, header loop, method choice) builds that request, and all its headers are well formed |
| Webhook.MethodExamples | src/main.cpp:596 | "POST", "post" and "PoSt" give POST; "", "GET", "PUT" and " POST" give GET |
| Webhook.DefaultMethodIsGet | src/main.cpp:165 | a device that has never stored a method sends GET requests |
| Webhook.FormWithoutMethodIsGet | src/main.cpp:474 | a configuration saved from a form without a method sends GET requests |
| Connectivity.PollsFrom | src/main.cpp:289-302 | a cycle polls at most ten times and stops early only on a connected reading |
| Connectivity.PollsFromFirst | src/main.cpp:289 | no reading before the poll count is connected |
| Connectivity.RunCycle | src/main.cpp:270-302 | the polling loop makes exactly the cycle's poll count of polls and spends 1000 ms plus 1000 ms per poll |
| Connectivity.SetupWiFi | src/main.cpp:262-320 | the retry loop runs 1 to 3 cycles, and every cycle but the last failed. It connects exactly when one of the three cycles ends connected, and returns at the first that does. It runs all three when none does. Its delays total 100 + 1000·cycles + 1000·polls + 3000 per failed cycle before the last |
| Connectivity.SetupWiFiBound | src/main.cpp:13-15 | the retry loop makes at most 30 polls and spends at most 39,100 ms in `delay` |
| Connectivity.UpAtOnce | src/main.cpp:289-308 | a radio already connected at the first status read connects in the first cycle without a single poll |
| Connectivity.NeverUpWaitsLongest | src/main.cpp:266-320 | a radio that never connects costs all 30 polls of the retry loop, hence exactly 39,100 ms of its delays, and leads to the access point |
| Device.ButtonEdge | src/main.cpp:197-212 | an edge is counted iff more than 300 ms of unsigned time passed since the last counted press. A counted edge adds exactly one press and stamps both press and activity time. A rejected edge changes nothing, and no other field ever changes |
| Device.DebounceWindow | src/main.cpp:200 | after a counted press every edge up to 300 ms later is ignored, and the first later one is counted, across the clock wrap too |
| Device.DebounceExamples | src/main.cpp:197-212 | edges 150 ms apart count once, 350 ms apart twice, also when the pair straddles the wrap |
| Device.SendWebhookRequest | src/main.cpp:556-617 | a dispatch always ends with the in-progress flag cleared. With an empty URL it returns early, sends nothing, and leaves the activity time at the start reading. Otherwise it sends the configured request and stamps the activity time with the reading after the exchange. No other field changes on either path |
| Device.ConnectedPass | src/main.cpp:230-253 | one pending press is taken and dispatched when there is one, and the activity time is stamped after the dispatch; otherwise nothing changes. The pass sleeps exactly when nothing is pending or in progress and a minute has passed since the last activity. It never restarts |
| Device.ConnectedLoop | src/main.cpp:230-253 | the connected branch, running the two-exit dispatch with its own clock readings, reaches exactly the outcome ConnectedPass states |
| Device.IdleSleep | src/main.cpp:246-251 | an idle connected device stays awake for less than 60,000 ms after its last activity and sleeps at the first pass at or after that |
| Device.HandleSave | src/main.cpp:465-524 | a missing required field gives 400 and changes only the activity time. Otherwise the answer is 200, the configuration becomes the form's field-by-field trimmed values, is stored, loads back unchanged, and a restart is requested. Pending presses, the in-progress flag, the mode and the last-press time never change |
| Device.Serve | src/main.cpp:380-401 | only a save request can change the configuration or the store; every request gets an answer |
| Device.PortalPass | src/main.cpp:217-228 | the portal branch never sleeps and restarts exactly when a configuration has been saved |
| Device.LoopPass | src/main.cpp:214-257 | a pass keeps the counter non-negative and nothing in progress. It sleeps only when connected with nothing pending, and restarts only from the portal branch. It takes at most one press, and only when connected |
| Device.Boot | src/main.cpp:83-195 | a button wake counts one press, and the last-press time starts at 0 with nothing in progress. A held button forces the access point. The station is used exactly when it is not held, SSID and password are non-empty and a retry cycle connects |
| Device.Setup | src/main.cpp:158-194 | running the retry loop gives the same state as Boot. The loop's delays total at most 39,100 ms, and are spent only when credentials exist and the button is not held |
| Device.Run | src/main.cpp:197-253 | a run of events, applied in order up to the first sleep or restart, counts and takes no more presses in total than there are events, and sends no more requests than there are events |
| Device.RunConserves | src/main.cpp:197-242 | over any run, presses pending at the end plus presses dispatched equal presses pending at the start plus presses counted. The counter never goes negative, and each dispatch sends at most one request |
| Device.RunSleepsIdle | src/main.cpp:244-252 | a run ends in sleep only in station mode with no press pending |
| Device.WakeSendsRequest | src/main.cpp:113-119 | a button wake on a configured device sends the configured request at the first connected pass and leaves nothing pending |
| Device.ProvisionAndReboot | src/main.cpp:222-225 | a valid form leads to a restart whose boot loads exactly the submitted configuration |
| Device.RefusedFormKeepsRunning | src/main.cpp:521-523 | a refused form gets 400 and the portal keeps running with only the activity time changed |

## Left out

- Wi-Fi, soft-AP, DNS, web server and HTTP client calls, and TLS, are foreign
  library I/O. Connection status and portal requests are inputs. The HTTP
  response code and body (src/main.cpp:606-612) change no state, and the
  request is returned instead of sent.
- The HTML of `handleRoot` and of the save confirmation is text templating
  with no logic.
- `setupAP`, with its random SSID suffix and its second `softAP` attempt,
  changes no modelled state. Only its effect is kept: access point mode with
  the web server running.
- `getWiFiStatusString`, `isButtonPressed` (unused) and all `Serial` logging
  have nothing to prove.
- Deep-sleep entry, GPIO wake configuration, `ESP.restart` and the `delay`
  calls outside `setupWiFi` are hardware effects. Sleep and restart end a run
  and the next `Boot` starts from the store.
- Real interrupt preemption, `__atomic_fetch_add` and the non-atomic
  `pendingRequests--` are not modelled. The interrupt is one atomic step
  between loop passes. An edge arriving during the blocking request has the
  same effect as one just before that pass, since a press is pending anyway
  and the activity time is overwritten at the end of the pass.
- `pendingRequests` is a 32-bit `int`; the model uses an unbounded integer.
  Overflow would take 2^31 counted presses.
- Arduino `String` stops at an embedded NUL byte in `indexOf` and
  `equalsIgnoreCase`. `Preferences` `putString`/`getString`
  (src/main.cpp:491-496, 162-167) store C strings, so a value holding a 0
  byte would come back cut short. Byte strings here may hold 0 and are
  treated as ordinary bytes, so Settings.SaveThenLoad and
  Settings.LoadPersist hold for the firmware only for values without a 0
  byte.
- Device.Setup: `waited` counts only the delays of `setupWiFi`'s retry loop.
  `setupAP`'s 500 + 100 + 500 ms (plus 1,000 ms when the first `softAP`
  fails, src/main.cpp:335-363) and the other delays in `setup` are not
  counted. The same holds for Connectivity.SetupWiFi and
  Connectivity.SetupWiFiBound.
- Connectivity.SetupWiFi: two `WiFi.status()` reads at the same point of a
  cycle are taken to agree: the loop test and the check right after the
  loop. The diagnostic read every third poll is ignored because it does not
  affect control.
- The radio mode is either access point or station. `setupAP` passes
  through `WIFI_OFF` (src/main.cpp:338) on its way to `WIFI_AP`, but every
  path through `setup` ends in `WIFI_AP` or `WIFI_STA` (src/main.cpp:183,
  192, 262, 324), so `loop()`'s `WiFi.getMode()` (src/main.cpp:215) only
  ever sees those two. AP+STA is never entered.
- `escapeJsonString`'s `reserve` call only sizes a buffer. The decoder in the
  model accepts `\u00XX` only, since the result is a byte string.
- `Preferences` write failures are not detected by the firmware, and the
  store is modelled as always succeeding.

=== FILE: clock.dfy ===
/** The firmware's millisecond clock. `millis()` returns an `unsigned long`,
    32 bits wide on the ESP32-C3, so readings wrap after 2^32 ms (about 49.7
    days) and every "time since" is an unsigned subtraction modulo 2^32. */
module Clock {

  const WRAP: int := 0x1_0000_0000

  /** A reading of `millis()`. */
  type Millis = t: int | 0 <= t < WRAP

  /** Debounce window of the button handler (src/main.cpp:69). */
  const DEBOUNCE_TIME: Millis := 300

  /** Idle time after which the connected device goes to sleep (src/main.cpp:17). */
  const SLEEP_TIMEOUT: Millis := 60000

  /** `now - since` on `unsigned long`: the unique reading `d` such that
      advancing `since` by `d` milliseconds lands on `now`. */
  function Elapsed(now: Millis, since: Millis): (d: Millis)
    ensures (since + d) % WRAP == now
    ensures since <= now ==> d == now - since
    ensures now < since ==> d == now + WRAP - since
  {
    (now - since) % WRAP
  }

  /** The elapsed time is the only value with the wrap-around property. */
  lemma ElapsedUnique(now: Millis, since: Millis, d: Millis)
    requires (since + d) % WRAP == now
    ensures d == Elapsed(now, since)
  {
    if since + d >= WRAP {
      assert (since + d) % WRAP == since + d - WRAP;
    }
  }
}

=== FILE: connectivity.dfy ===
/** The connection retry protocol of `setupWiFi` (src/main.cpp:259-326): up
    to three full cycles, each a disconnect, a one-second pause and up to ten
    one-second polls of the radio status, with a three-second back-off
    after every failed cycle but the last. The radio is not modelled: its
    status is an oracle answering, for a cycle and a number of polls done in
    it, whether the station is connected at that point. */
module Connectivity {

  const MAX_CONNECTION_ATTEMPTS: nat := 10
  const CONNECTION_RETRY_DELAY: nat := 1000
  const MAX_FULL_CONNECTION_ATTEMPTS: nat := 3
  /** The pause after switching the radio to station mode. */
  const MODE_DELAY: nat := 100
  /** The pause after each disconnect, before `WiFi.begin`. */
  const DISCONNECT_DELAY: nat := 1000
  /** The back-off after a failed cycle that is not the last. */
  const BACKOFF_DELAY: nat := 3000

  /** `up(cycle, polls)`: whether `WiFi.status()` reads `WL_CONNECTED` in
      cycle `cycle` once `polls` polls of that cycle are done. */
  type Radio = (nat, nat) -> bool

  /** The number of polls cycle `cycle` makes when `from` are already done:
      it stops at the first point the radio reads connected, and after ten
      polls at the latest. */
  function PollsFrom(up: Radio, cycle: nat, from: nat): (n: nat)
    requires from <= MAX_CONNECTION_ATTEMPTS
    ensures from <= n <= MAX_CONNECTION_ATTEMPTS
    ensures n < MAX_CONNECTION_ATTEMPTS ==> up(cycle, n)
    decreases MAX_CONNECTION_ATTEMPTS - from
  {
    if from == MAX_CONNECTION_ATTEMPTS || up(cycle, from) then from
    else PollsFrom(up, cycle, from + 1)
  }

  /** The polls cycle `cycle` makes. */
  function Polls(up: Radio, cycle: nat): (n: nat)
    ensures n <= MAX_CONNECTION_ATTEMPTS
  {
    PollsFrom(up, cycle, 0)
  }

  /** Whether cycle `cycle` ends connected: the status read after its polls. */
  predicate CycleUp(up: Radio, cycle: nat) {
    up(cycle, Polls(up, cycle))
  }

  /** Whether `setupWiFi` returns connected rather than falling through to
      the access point. */
  predicate Connects(up: Radio) {
    CycleUp(up, 0) || CycleUp(up, 1) || CycleUp(up, 2)
  }

  /** Whether each of the first `k` cycles ends unconnected. */
  predicate FailsBefore(up: Radio, k: nat) {
    k == 0 || (FailsBefore(up, k - 1) && !CycleUp(up, k - 1))
  }

  lemma {:induction false} FailsBeforeAll(up: Radio, k: nat)
    requires FailsBefore(up, k)
    ensures forall c :: 0 <= c < k ==> !CycleUp(up, c)
  {
    if k > 0 {
      FailsBeforeAll(up, k - 1);
    }
  }

  /** All polls of the first `k` cycles. */
  function PollsBefore(up: Radio, k: nat): (n: nat)
    ensures n <= MAX_CONNECTION_ATTEMPTS * k
  {
    if k == 0 then 0 else PollsBefore(up, k - 1) + Polls(up, k - 1)
  }

  /** The polls stop at the first connected reading: there is none before. */
  lemma {:induction false} PollsFromFirst(up: Radio, cycle: nat, from: nat)
    requires from <= MAX_CONNECTION_ATTEMPTS
    ensures forall a :: from <= a < PollsFrom(up, cycle, from) ==> !up(cycle, a)
    decreases MAX_CONNECTION_ATTEMPTS - from
  {
    if from < MAX_CONNECTION_ATTEMPTS && !up(cycle, from) {
      PollsFromFirst(up, cycle, from + 1);
    }
  }

  /** A count with no connected reading before it and a connected reading
      (or the cap) at it is the count of polls. */
  lemma {:induction false} PollsFromIs(up: Radio, cycle: nat, from: nat, n: nat)
    requires from <= n <= MAX_CONNECTION_ATTEMPTS
    requires forall a :: from <= a < n ==> !up(cycle, a)
    requires n == MAX_CONNECTION_ATTEMPTS || up(cycle, n)
    ensures PollsFrom(up, cycle, from) == n
    decreases n - from
  {
    if from < n {
      assert !up(cycle, from);
      PollsFromIs(up, cycle, from + 1, n);
    }
  }

  /** One full cycle (src/main.cpp:270-302): the disconnect and its pause,
      then one poll a second while the radio is not connected, at most ten
      times. Returns whether the status read after the polls is connected,
      the number of polls and the milliseconds spent in `delay`. */
  method RunCycle(up: Radio, cycle: nat) returns (linked: bool, attempts: nat, spent: nat)
    ensures attempts == Polls(up, cycle)
    ensures linked == CycleUp(up, cycle)
    ensures spent == DISCONNECT_DELAY + CONNECTION_RETRY_DELAY * attempts
  {
    spent := DISCONNECT_DELAY;
    attempts := 0;
    while !up(cycle, attempts) && attempts < MAX_CONNECTION_ATTEMPTS
      invariant attempts <= MAX_CONNECTION_ATTEMPTS
      invariant forall a :: 0 <= a < attempts ==> !up(cycle, a)
      invariant spent == DISCONNECT_DELAY + CONNECTION_RETRY_DELAY * attempts
    {
      spent := spent + CONNECTION_RETRY_DELAY;
      attempts := attempts + 1;
    }
    PollsFromIs(up, cycle, 0, attempts);
    linked := up(cycle, attempts);
  }

  /** `setupWiFi`'s retry loop (src/main.cpp:262-320): returns whether the
      station connected, how many cycles ran, how many polls were made and
      how many milliseconds the loop spent in `delay`. The fallback call to
      `setupAP` after the loop has delays of its own, not counted here. */
  method SetupWiFi(up: Radio) returns (connected: bool, cycles: nat, polls: nat, waited: nat)
    ensures 1 <= cycles <= MAX_FULL_CONNECTION_ATTEMPTS
    ensures forall c :: 0 <= c < cycles - 1 ==> !CycleUp(up, c)
    ensures connected == CycleUp(up, cycles - 1)
    ensures !connected ==> cycles == MAX_FULL_CONNECTION_ATTEMPTS
    ensures connected == Connects(up)
    ensures polls == PollsBefore(up, cycles)
    ensures waited == 100 + 1000 * cycles + 1000 * polls + 3000 * (if connected then cycles - 1 else 2)
  {
    waited := MODE_DELAY;
    polls := 0;
    var fullAttempt: nat := 0;
    while fullAttempt < MAX_FULL_CONNECTION_ATTEMPTS
      invariant fullAttempt <= MAX_FULL_CONNECTION_ATTEMPTS
      invariant FailsBefore(up, fullAttempt)
      invariant polls == PollsBefore(up, fullAttempt)
      invariant waited == 100 + 1000 * fullAttempt + 1000 * polls + 3000 * (if fullAttempt < 3 then fullAttempt else 2)
    {
      var linked, attempts, spent := RunCycle(up, fullAttempt);
      waited := waited + spent;
      polls := polls + attempts;
      if linked {
        connected, cycles := true, fullAttempt + 1;
        FailsBeforeAll(up, fullAttempt);
        return;
      }
      if fullAttempt < MAX_FULL_CONNECTION_ATTEMPTS - 1 {
        waited := waited + BACKOFF_DELAY;
      }
      fullAttempt := fullAttempt + 1;
    }
    connected, cycles := false, MAX_FULL_CONNECTION_ATTEMPTS;
    FailsBeforeAll(up, fullAttempt);
  }

  /** The longest the retry loop can block: 100 + 3 * (1000 + 10 * 1000)
      + 2 * 3000 = 39,100 ms. */
  lemma SetupWiFiBound(up: Radio, connected: bool, cycles: nat, polls: nat, waited: nat)
    requires 1 <= cycles <= MAX_FULL_CONNECTION_ATTEMPTS && polls == PollsBefore(up, cycles)
    requires waited == 100 + 1000 * cycles + 1000 * polls + 3000 * (if connected then cycles - 1 else 2)
    ensures polls <= 30
    ensures waited <= 39100
  {
  }

  /** A radio that never connects uses the retry loop's whole budget: all
      three cycles and 30 polls, which by `SetupWiFi`'s delay total is
      exactly 39,100 ms. */
  lemma NeverUpWaitsLongest(up: Radio)
    requires forall c, a :: !up(c, a)
    ensures !Connects(up)
    ensures PollsBefore(up, MAX_FULL_CONNECTION_ATTEMPTS) == 30
  {
    PollsFromIs(up, 0, 0, 10);
    PollsFromIs(up, 1, 0, 10);
    PollsFromIs(up, 2, 0, 10);
  }

  /** A radio that is up at once connects in the first cycle without a
      single poll, which by `SetupWiFi`'s delay total takes 1,100 ms. */
  lemma UpAtOnce(up: Radio)
    requires up(0, 0)
    ensures CycleUp(up, 0) && Connects(up) && PollsBefore(up, 1) == 0
  {
  }
}

=== FILE: device.dfy ===
/** The firmware's control rules (src/main.cpp): the button interrupt with
    its debounce, one pass of `loop()` in each of its branches, the
    provisioning form handler, and `setup` choosing between the station and
    the access point. The interrupt handler is one atomic step between loop
    passes; hardware effects (deep sleep, restart) end a run and are
    reported as what comes next. */
module Device {
  import opened Clock
  import opened Optional
  import opened Text
  import opened Settings
  import opened Webhook
  import opened Connectivity

  /** The radio mode `setup` leaves the device in. */
  datatype WifiMode = AccessPoint | Station

  /** `esp_sleep_get_wakeup_cause()`; after a power-on or `ESP.restart` the
      cause is undefined. */
  datatype WakeCause = Undefined | GpioWake | TimerWake | OtherWake

  /** The firmware's RAM state and its persistent store. */
  datatype State = State(
    mode: WifiMode,
    pending: int,
    inProgress: bool,
    lastPress: Millis,
    lastActivity: Millis,
    configSaved: bool,
    config: Config,
    store: Store)

  /** What follows a loop pass: another pass, deep sleep, or a restart. */
  datatype Next = Running | Sleeping | Restarting

  /** A request the captive portal's web server may be handling during a
      loop pass: the configuration page (and the captive-portal probes
      that show it), a POST to "/save", or any other page, which is
      redirected. */
  datatype PortalRequest = NoRequest | RootPage(t: Millis) | SavePost(t: Millis, form: Form) | OtherPage

  /** The result of one loop pass: the new state, what comes next, the
      webhook request sent (if any) and the HTTP status the portal answered
      with (if any). */
  datatype Outcome = Outcome(st: State, next: Next, request: Option<Request>, status: Option<int>)

  /** What holds between loop passes: the press counter is never negative
      and no request is in progress, since the only code that sets the flag
      clears it before returning. */
  predicate Valid(st: State) {
    st.pending >= 0 && !st.inProgress
  }

  /** Whether the button interrupt at `now` counts a press: strictly more
      than the debounce time since the last counted press, measured as
      unsigned 32-bit time. */
  predicate Accepts(st: State, now: Millis) {
    Elapsed(now, st.lastPress) > DEBOUNCE_TIME
  }

  /** `buttonISR` (src/main.cpp:197-212). */
  function ButtonEdge(st: State, now: Millis): (r: State)
    ensures r.pending == st.pending + (if Accepts(st, now) then 1 else 0)
    ensures Accepts(st, now) ==> r.lastPress == now && r.lastActivity == now
    ensures !Accepts(st, now) ==> r == st
    ensures r.(pending := st.pending, lastPress := st.lastPress, lastActivity := st.lastActivity) == st
  {
    if Elapsed(now, st.lastPress) > DEBOUNCE_TIME then
      st.(pending := st.pending + 1, lastPress := now, lastActivity := now)
    else st
  }

  /** `sendWebhookRequest` (src/main.cpp:556-617): it raises the in-progress
      flag and stamps the activity time with the clock reading `tStart`. With
      an empty URL it clears the flag and returns at once. Otherwise it builds
      and sends the request, stamps the activity time again with the reading
      `tEnd` taken after the exchange, and clears the flag. */
  method SendWebhookRequest(st: State, tStart: Millis, tEnd: Millis) returns (s: State, req: Option<Request>)
    ensures !s.inProgress
    ensures |st.config.webhookUrl| == 0 ==> req.None? && s.lastActivity == tStart
    ensures |st.config.webhookUrl| > 0 ==> req.Some? && req == BuildRequest(st.config) && s.lastActivity == tEnd
    ensures s.(inProgress := st.inProgress, lastActivity := st.lastActivity) == st
  {
    s := st.(inProgress := true, lastActivity := tStart);
    if |s.config.webhookUrl| == 0 {
      s := s.(inProgress := false);
      return s, None;
    }
    req := PrepareRequest(s.config);
    s := s.(lastActivity := tEnd);
    s := s.(inProgress := false);
  }

  /** Whether the connected loop would go to sleep at clock reading `now`. */
  predicate SleepDue(st: State, now: Millis) {
    !st.inProgress && st.pending == 0 && Elapsed(now, st.lastActivity) >= SLEEP_TIMEOUT
  }

  /** The connected branch of `loop()` (src/main.cpp:230-253): one pending
      press is taken and dispatched, and the activity time is stamped with
      the reading `tDone` taken once the dispatch returns. Then the device
      sleeps if nothing is pending and the clock reading `tCheck` is at least
      a minute past the last activity. */
  function ConnectedPass(st: State, tDone: Millis, tCheck: Millis): (o: Outcome)
    ensures o.st.pending == (if st.pending > 0 && !st.inProgress then st.pending - 1 else st.pending)
    ensures o.st.inProgress == st.inProgress
    ensures o.request.Some? ==> st.pending > 0 && o.request == BuildRequest(st.config)
    ensures st.pending > 0 && !st.inProgress ==> o.st.lastActivity == tDone && o.request == BuildRequest(st.config)
    ensures !(st.pending > 0 && !st.inProgress) ==> o.st == st && o.request.None?
    ensures o.next == Sleeping <==> SleepDue(o.st, tCheck)
    ensures o.next != Restarting && o.status.None?
    ensures o.st.config == st.config && o.st.store == st.store && o.st.mode == st.mode
    ensures o.st.configSaved == st.configSaved && o.st.lastPress == st.lastPress
  {
    var (s1, req) :=
      if st.pending > 0 && !st.inProgress then (st.(pending := st.pending - 1, lastActivity := tDone), BuildRequest(st.config))
      else (st, None);
    Outcome(s1, if SleepDue(s1, tCheck) then Sleeping else Running, req, None)
  }

  /** The connected branch as the firmware runs it, with the dispatch made
      by `SendWebhookRequest` and its own two clock readings. It has the
      outcome of `ConnectedPass`: whichever way the dispatch returns, the
      flag is down again and the loop's own stamp replaces the dispatch's. */
  method ConnectedLoop(st: State, tStart: Millis, tEnd: Millis, tDone: Millis, tCheck: Millis) returns (o: Outcome)
    ensures o == ConnectedPass(st, tDone, tCheck)
  {
    var s := st;
    var req: Option<Request> := None;
    if s.pending > 0 && !s.inProgress {
      s := s.(pending := s.pending - 1);
      s, req := SendWebhookRequest(s, tStart, tEnd);
      s := s.(lastActivity := tDone);
    }
    var next := if SleepDue(s, tCheck) then Sleeping else Running;
    o := Outcome(s, next, req, None);
  }

  /** `handleSave` (src/main.cpp:465-524): a form missing the SSID, the
      password or the webhook URL is refused with 400 and changes only the
      activity time; otherwise the six trimmed values replace the RAM
      configuration and the stored one, the answer is 200 and a restart is
      requested. */
  function HandleSave(st: State, t: Millis, form: Form): (r: (State, int))
    ensures r.0.lastActivity == t
    ensures r.1 == 400 <==> SaveForm(form).None?
    ensures r.1 == 200 <==> SaveForm(form).Some?
    ensures r.1 == 400 ==> r.0 == st.(lastActivity := t)
    ensures r.1 == 200 ==> r.0.configSaved && r.0.config == SaveForm(form).value && AllTrimmed(r.0.config)
    ensures r.1 == 200 ==> r.0.store == Persist(st.store, r.0.config) && Load(r.0.store) == r.0.config
    ensures r.0.pending == st.pending && r.0.inProgress == st.inProgress && r.0.mode == st.mode && r.0.lastPress == st.lastPress
  {
    match SaveForm(form)
    case None => (st.(lastActivity := t), 400)
    case Some(cfg) =>
      LoadPersist(st.store, cfg);
      (st.(lastActivity := t, config := cfg, store := Persist(st.store, cfg), configSaved := true), 200)
  }

  /** `server.handleClient()` once the web server runs: the configuration
      page stamps the activity time, "/save" is `HandleSave`, anything else
      is redirected with 302. */
  function Serve(st: State, req: PortalRequest): (r: (State, Option<int>))
    ensures req.NoRequest? <==> r.1.None?
    ensures r.0.pending == st.pending && r.0.inProgress == st.inProgress && r.0.mode == st.mode
    ensures !req.SavePost? ==> r.0.configSaved == st.configSaved && r.0.config == st.config && r.0.store == st.store
  {
    match req
    case NoRequest => (st, None)
    case RootPage(t) => (st.(lastActivity := t), Some(200))
    case SavePost(t, form) => var (s, code) := HandleSave(st, t, form); (s, Some(code))
    case OtherPage => (st, Some(302))
  }

  /** The portal branch of `loop()` (src/main.cpp:217-228), taken in access
      point mode and in station mode without a connection. The web server
      only runs in access point mode (it is started right after the access
      point is), so in station mode no request is handled. The device never
      sleeps here and restarts exactly when a configuration has been saved. */
  function PortalPass(st: State, req: PortalRequest): (o: Outcome)
    ensures o.next != Sleeping
    ensures o.next == Restarting <==> o.st.configSaved
    ensures o.request.None?
    ensures o.st.pending == st.pending && o.st.inProgress == st.inProgress && o.st.mode == st.mode
    ensures st.mode == Station ==> o.st == st && o.status.None?
  {
    var (s, status) := if st.mode == AccessPoint then Serve(st, req) else (st, None);
    Outcome(s, if s.configSaved then Restarting else Running, None, status)
  }

  /** One pass of `loop()` (src/main.cpp:214-257). `linked1` and `linked2`
      are the two readings of `WiFi.status() == WL_CONNECTED` the pass
      makes; if the connection drops between them, neither branch runs. */
  function LoopPass(st: State, linked1: bool, linked2: bool, req: PortalRequest, tDone: Millis, tCheck: Millis): (o: Outcome)
    ensures Valid(st) ==> Valid(o.st)
    ensures o.next == Sleeping ==> st.mode == Station && linked1 && linked2 && SleepDue(o.st, tCheck)
    ensures o.next == Restarting ==> (st.mode == AccessPoint || !linked1) && o.st.configSaved
    ensures o.request.Some? ==> st.mode == Station && linked2 && st.pending > 0
    ensures o.st.pending == st.pending || (o.st.pending == st.pending - 1 && st.mode == Station && linked1 && linked2)
  {
    if st.mode == AccessPoint || (st.mode == Station && !linked1) then PortalPass(st, req)
    else if st.mode == Station && linked2 then ConnectedPass(st, tDone, tCheck)
    else Outcome(st, Running, None, None)
  }

  /** `setup` (src/main.cpp:83-195): the activity time starts at the boot
      reading `tBoot`, a button wake counts as one press, the configuration
      is loaded, and the station is tried only when the button is not held
      and both SSID and password are non-empty; the access point serves
      otherwise, also when every connection cycle fails. */
  function Boot(store: Store, wake: WakeCause, buttonHeld: bool, tBoot: Millis, up: Radio): (st: State)
    ensures Valid(st) && !st.configSaved
    ensures st.pending == (if wake == GpioWake then 1 else 0)
    ensures st.config == Load(store) && st.store == store && st.lastActivity == tBoot
    ensures st.lastPress == 0 && !st.inProgress
    ensures buttonHeld ==> st.mode == AccessPoint
    ensures st.mode == Station <==> !buttonHeld && |st.config.ssid| > 0 && |st.config.password| > 0 && Connects(up)
  {
    var cfg := Load(store);
    var mode :=
      if buttonHeld then AccessPoint
      else if |cfg.ssid| > 0 && |cfg.password| > 0 && Connects(up) then Station
      else AccessPoint;
    State(mode, if wake == GpioWake then 1 else 0, false, 0, tBoot, false, cfg, store)
  }

  /** `setup` with the retry protocol run as a loop: the same state as
      `Boot`, and the time spent in the delays of `setupWiFi`'s retry loop
      (zero when it is not called). */
  method Setup(store: Store, wake: WakeCause, buttonHeld: bool, tBoot: Millis, up: Radio) returns (st: State, waited: nat)
    ensures st == Boot(store, wake, buttonHeld, tBoot, up)
    ensures waited <= 39100
    ensures waited > 0 <==> !buttonHeld && |st.config.ssid| > 0 && |st.config.password| > 0
  {
    var cfg := Load(store);
    var pending := if wake == GpioWake then 1 else 0;
    var mode := AccessPoint;
    waited := 0;
    if !buttonHeld && |cfg.ssid| > 0 && |cfg.password| > 0 {
      var connected, cycles, polls;
      connected, cycles, polls, waited := SetupWiFi(up);
      SetupWiFiBound(up, connected, cycles, polls, waited);
      if connected {
        mode := Station;
      }
    }
    st := State(mode, pending, false, 0, tBoot, false, cfg, store);
  }

  /** What can happen between two reboots. */
  datatype Event =
    | Press(t: Millis)
    | Pass(linked1: bool, linked2: bool, req: PortalRequest, tDone: Millis, tCheck: Millis)

  /** A run: the final state, whether it ended in sleep or restart, the
      presses counted, the presses taken for dispatch and the requests
      sent. */
  datatype RunResult = RunResult(st: State, next: Next, accepted: nat, dispatched: nat, sent: seq<Request>)

  /** Applies the events in order until a pass ends in sleep or restart;
      events after that are not reached. */
  function Run(st: State, events: seq<Event>): (r: RunResult)
    ensures r.accepted + r.dispatched <= |events|
    ensures |r.sent| <= |events|
    decreases |events|
  {
    if |events| == 0 then RunResult(st, Running, 0, 0, [])
    else match events[0]
      case Press(t) =>
        var r := Run(ButtonEdge(st, t), events[1..]);
        r.(accepted := r.accepted + if Accepts(st, t) then 1 else 0)
      case Pass(l1, l2, req, tDone, tCheck) =>
        var o := LoopPass(st, l1, l2, req, tDone, tCheck);
        var took := if o.st.pending < st.pending then 1 else 0;
        var out := match o.request case Some(q) => [q] case None => [];
        if o.next != Running then RunResult(o.st, o.next, 0, took, out)
        else
          var r := Run(o.st, events[1..]);
          r.(dispatched := r.dispatched + took, sent := out + r.sent)
  }

  /** Every press is accounted for: the presses still pending at the end
      plus those taken for dispatch equal the presses pending at the start
      plus those counted; the counter never goes negative, no request is
      left in progress, and no press yields more than one request. */
  lemma {:induction false} RunConserves(st: State, events: seq<Event>)
    requires Valid(st)
    ensures var r := Run(st, events);
            && Valid(r.st)
            && r.st.pending + r.dispatched == st.pending + r.accepted
            && |r.sent| <= r.dispatched
    decreases |events|
  {
    if |events| > 0 {
      match events[0]
      case Press(t) =>
        RunConserves(ButtonEdge(st, t), events[1..]);
      case Pass(l1, l2, req, tDone, tCheck) =>
        var o := LoopPass(st, l1, l2, req, tDone, tCheck);
        if o.next == Running {
          RunConserves(o.st, events[1..]);
        }
    }
  }

  /** A run that ends asleep ends with nothing pending, in station mode. */
  lemma {:induction false} RunSleepsIdle(st: State, events: seq<Event>)
    requires Valid(st)
    ensures Run(st, events).next == Sleeping ==> Run(st, events).st.pending == 0 && Run(st, events).st.mode == st.mode == Station
    decreases |events|
  {
    if |events| > 0 {
      match events[0]
      case Press(t) =>
        RunSleepsIdle(ButtonEdge(st, t), events[1..]);
      case Pass(l1, l2, req, tDone, tCheck) =>
        var o := LoopPass(st, l1, l2, req, tDone, tCheck);
        if o.next == Running {
          RunSleepsIdle(o.st, events[1..]);
        }
    }
  }

  /** Debounce: after a counted press at `t`, the interrupt ignores every
      edge up to 300 ms later, across the 2^32 wrap-around too, and counts
      the first one after that. */
  lemma DebounceWindow(st: State, t: Millis, d: Millis)
    requires Accepts(st, t)
    ensures var s := ButtonEdge(st, t);
            var t2 := (t + d) % WRAP;
            ButtonEdge(s, t2) == (if d > DEBOUNCE_TIME then s.(pending := s.pending + 1, lastPress := t2, lastActivity := t2) else s)
  {
    var s := ButtonEdge(st, t);
    ElapsedUnique((t + d) % WRAP, t, d);
  }

  /** Two edges 150 ms apart count once; 350 ms apart, twice; and a pair
      straddling the wrap-around of the clock is measured correctly. */
  lemma DebounceExamples(st: State)
    requires st.lastPress == 0 && st.pending == 0
    ensures ButtonEdge(ButtonEdge(st, 1000), 1150).pending == 1
    ensures ButtonEdge(ButtonEdge(st, 1000), 1350).pending == 2
    ensures ButtonEdge(ButtonEdge(st, WRAP - 100), 150).pending == 1
    ensures ButtonEdge(ButtonEdge(st, WRAP - 100), 250).pending == 2
  {
  }

  /** Once connected and idle, the device stays awake for a minute after the
      last activity and sleeps at the first pass a minute or more later. */
  lemma IdleSleep(st: State, tDone: Millis, d: Millis)
    requires Valid(st) && st.pending == 0
    ensures var tCheck := (st.lastActivity + d) % WRAP;
            ConnectedPass(st, tDone, tCheck).next == (if d >= SLEEP_TIMEOUT then Sleeping else Running)
  {
    ElapsedUnique((st.lastActivity + d) % WRAP, st.lastActivity, d);
  }

  /** A button wake with a configured station and a non-empty URL: the
      first connected pass sends the configured request, leaves nothing
      pending, and does not sleep straight away. */
  lemma WakeSendsRequest(store: Store, tBoot: Millis, up: Radio, tDone: Millis, tCheck: Millis)
    requires var cfg := Load(store); |cfg.ssid| > 0 && |cfg.password| > 0 && |cfg.webhookUrl| > 0
    requires Connects(up)
    requires Elapsed(tCheck, tDone) < SLEEP_TIMEOUT
    ensures var st := Boot(store, GpioWake, false, tBoot, up);
            var o := LoopPass(st, true, true, NoRequest, tDone, tCheck);
            && st.mode == Station
            && o.request == BuildRequest(Load(store)) && o.request.Some?
            && o.st.pending == 0 && o.next == Running
  {
  }

  /** Provisioning: a valid form posted to the access point leads to a
      restart, and the next boot loads exactly what was submitted. If the
      submitted SSID and password are non-empty and the button is not held,
      that boot tries the station. */
  lemma ProvisionAndReboot(st: State, t: Millis, form: Form, up: Radio, tBoot: Millis)
    requires st.mode == AccessPoint && SaveForm(form).Some?
    ensures var o := PortalPass(st, SavePost(t, form));
            var b := Boot(o.st.store, Undefined, false, tBoot, up);
            && o.next == Restarting && o.status == Some(200)
            && b.config == SaveForm(form).value
            && b.pending == 0
            && (b.mode == Station <==> |b.config.ssid| > 0 && |b.config.password| > 0 && Connects(up))
  {
    SaveThenLoad(st.store, form);
  }

  /** A form missing a required field is refused, and the portal keeps
      running without a restart unless one was already due. */
  lemma RefusedFormKeepsRunning(st: State, t: Millis, form: Form)
    requires st.mode == AccessPoint && SaveForm(form).None? && !st.configSaved
    ensures var o := PortalPass(st, SavePost(t, form));
            o.next == Running && o.status == Some(400) && o.st == st.(lastActivity := t)
  {
  }
}

=== FILE: header_parser.dfy ===
/** The header-parsing loop of `sendWebhookRequest` (src/main.cpp:573-592),
    proved to collect exactly `Headers.ParsedHeaders`, and the sample header
    text worked through. */
module HeaderParser {
  import opened Text
  import opened Headers
  import opened Optional

  /** Reading the line at `lineStart` leaves the text after its line feed
      to read. */
  lemma NextLine(text: Bytes, lineStart: nat)
    requires lineStart < |text|
    ensures LinesOf(Rest(text, lineStart))
         == [text[lineStart..LineEnd(text, lineStart)]] + LinesOf(Rest(text, LineEnd(text, lineStart) + 1))
  {
    var lineEnd := LineEnd(text, lineStart);
    var rest := text[lineStart..];
    IndexOfShift(text, '\n', lineStart);
    var k := IndexOf(rest, '\n', 0);
    if k == -1 {
      assert rest == text[lineStart..lineEnd];
      assert LinesOf(rest) == [rest];
    } else {
      assert lineEnd == lineStart + k;
      assert rest[..k] == text[lineStart..lineEnd];
      assert rest[k + 1..] == text[lineEnd + 1..];
      assert LinesOf(rest) == [rest[..k]] + LinesOf(rest[k + 1..]);
    }
  }

  /** The walk from `i` visits the lines of the text left at `i`. */
  lemma {:induction false} LinesFromRest(text: Bytes, i: nat)
    ensures LinesFrom(text, i) == LinesOf(Rest(text, i))
    decreases |text| + 1 - i
  {
    if i < |text| {
      LinesFromRest(text, LineEnd(text, i) + 1);
      NextLine(text, i);
    } else if i == |text| {
      assert Rest(text, i) == [];
    }
  }

  /** Visiting the line at `lineStart` moves it from the unvisited lines to
      the visited ones. */
  lemma VisitLine(text: Bytes, lineStart: nat, lineEnd: nat, lines: seq<Bytes>)
    requires lineStart < |text| && lineEnd == LineEnd(text, lineStart)
    ensures lines + LinesFrom(text, lineStart)
         == (lines + [text[lineStart..lineEnd]]) + LinesFrom(text, lineEnd + 1)
  {
    var x := text[lineStart..lineEnd];
    var r := LinesFrom(text, lineEnd + 1);
    assert LinesFrom(text, lineStart) == [x] + r;
    assert lines + ([x] + r) == (lines + [x]) + r;
  }

  /** One pass of the parsing loop: the line from `lineStart` to `lineEnd`
      joins the visited lines, and the headers of the visited lines grow by
      what that line gives. */
  lemma LoopStep(text: Bytes, lineStart: nat, lineEnd: nat, lines: seq<Bytes>)
    requires lineStart < |text| && lineEnd == LineEnd(text, lineStart)
    ensures lines + LinesFrom(text, lineStart)
         == (lines + [text[lineStart..lineEnd]]) + LinesFrom(text, lineEnd + 1)
    ensures HeadersOf(lines + [text[lineStart..lineEnd]])
         == HeadersOf(lines) + Found(LineHeader(text[lineStart..lineEnd]))
  {
    VisitLine(text, lineStart, lineEnd, lines);
    HeadersOfAppend(lines, [text[lineStart..lineEnd]]);
    HeadersOfOne(text[lineStart..lineEnd]);
  }

  /** The lines the loop visits are the pieces between line feeds, except
      that the loop skips the empty piece after a final line feed (or the one
      piece of an empty text). */
  lemma {:induction false} SplitLines(rest: Bytes)
    ensures Split(rest, '\n') == LinesOf(rest) || Split(rest, '\n') == LinesOf(rest) + [[]]
    decreases |rest|
  {
    var k := IndexOf(rest, '\n', 0);
    if |rest| > 0 && k != -1 {
      SplitLines(rest[k + 1..]);
      PrependBoth(rest[..k], LinesOf(rest[k + 1..]), Split(rest[k + 1..], '\n'));
    }
  }

  /** Putting the same line in front of two line lists keeps them equal, or
      one a trailing empty line longer than the other. */
  lemma PrependBoth(line: Bytes, lines: seq<Bytes>, pieces: seq<Bytes>)
    requires pieces == lines || pieces == lines + [[]]
    ensures [line] + pieces == [line] + lines || [line] + pieces == ([line] + lines) + [[]]
  {
    if pieces != lines {
      assert [line] + (lines + [[]]) == ([line] + lines) + [[]];
    }
  }

  /** The lines the loop visits carry the headers of the split text: the
      empty line it skips carries none. */
  lemma LinesFromHeaders(text: Bytes)
    ensures HeadersOf(LinesFrom(text, 0)) == ParsedHeaders(text)
  {
    LinesFromRest(text, 0);
    assert Rest(text, 0) == text;
    SplitLines(text);
    var lines := LinesFrom(text, 0);
    if Split(text, '\n') != lines {
      HeadersOfAppend(lines, [[]]);
      assert Trim([]) == [];
      assert HeadersOf([[]]) == [];
    }
  }

  /** The body of the parsing loop for one line (src/main.cpp:578-590):
      trim, skip if empty, find the first colon, keep the line only when the
      colon is past its first byte, with the trimmed text on either side of
      the colon as name and value. */
  method ParseLine(raw: Bytes) returns (h: Option<Header>)
    ensures h == LineHeader(raw)
  {
    h := None;
    var line := Trim(raw);
    if |line| > 0 {
      var colon := IndexOf(line, ':', 0);
      if colon > 0 {
        var key := Trim(line[..colon]);
        var value := Trim(line[colon + 1..]);
        h := Some(Header(key, value));
        HeaderFromTrimmed(raw);
      } else {
        NoHeaderFromTrimmed(raw);
      }
    } else {
      NoHeaderFromTrimmed(raw);
    }
  }

  /** The parsing loop as the firmware runs it (src/main.cpp:574-592):
      `lineStart` walks from line to line, `lineEnd` is the next line feed or
      the end of the text. */
  method ParseHeaders(text: Bytes) returns (hs: seq<Header>)
    ensures hs == ParsedHeaders(text)
  {
    hs := [];
    ghost var lines: seq<Bytes> := [];
    var lineStart: nat := 0;
    while lineStart < |text|
      invariant LinesFrom(text, 0) == lines + LinesFrom(text, lineStart)
      invariant hs == HeadersOf(lines)
      decreases |text| + 1 - lineStart
    {
      var lineEnd := IndexOf(text, '\n', lineStart);
      if lineEnd == -1 {
        lineEnd := |text|;
      }
      assert lineEnd == LineEnd(text, lineStart);
      var h := ParseLine(text[lineStart..lineEnd]);
      ghost var line := text[lineStart..lineEnd];
      LoopStep(text, lineStart, lineEnd, lines);
      assert LinesFrom(text, 0) == (lines + [line]) + LinesFrom(text, lineEnd + 1);
      if h.Some? {
        hs := hs + [h.value];
      }
      lines := lines + [line];
      lineStart := lineEnd + 1;
    }
    assert LinesFrom(text, lineStart) == [];
    assert lines == LinesFrom(text, 0);
    LinesFromHeaders(text);
  }

  /** A sample header text: a well-formed line, a line without a colon,
      and a padded line trimmed on both sides of its colon. */
  lemma SampleHeaders(text: Bytes)
    requires text == "Via: x\nnone\n Tag : 1 "
    ensures ParsedHeaders(text) == [Header("Via", "x"), Header("Tag", "1")]
  {
    var l1: Bytes, l2: Bytes, l3: Bytes := "Via: x", "none", " Tag : 1 ";
    assert text == l1 + ['\n'] + (l2 + ['\n'] + l3);
    SplitThree(l1, l2, l3);
    SampleLines(l1, l2, l3);
  }

  /** Text made of three lines splits into those lines. */
  lemma SplitThree(l1: Bytes, l2: Bytes, l3: Bytes)
    requires '\n' !in l1 && '\n' !in l2 && '\n' !in l3
    ensures Split(l1 + ['\n'] + (l2 + ['\n'] + l3), '\n') == [l1, l2, l3]
  {
    SplitAt(l1, '\n', l2 + ['\n'] + l3);
    SplitAt(l2, '\n', l3);
    SplitNone(l3, '\n');
  }

  lemma SampleLines(l1: Bytes, l2: Bytes, l3: Bytes)
    requires l1 == "Via: x" && l2 == "none" && l3 == " Tag : 1 "
    ensures HeadersOf([l1, l2, l3]) == [Header("Via", "x"), Header("Tag", "1")]
  {
    SampleLine1(l1);
    SampleLine2(l2);
    SampleLine3(l3);
    HeadersOfOne(l1);
    HeadersOfOne(l2);
    HeadersOfOne(l3);
    HeadersOfThree(l1, l2, l3);
  }

  /** Three lines contribute their headers one after another. */
  lemma HeadersOfThree(l1: Bytes, l2: Bytes, l3: Bytes)
    ensures HeadersOf([l1, l2, l3]) == HeadersOf([l1]) + HeadersOf([l2]) + HeadersOf([l3])
  {
    assert [l1, l2, l3] == [l1] + [l2] + [l3];
    HeadersOfAppend([l1] + [l2], [l3]);
    HeadersOfAppend([l1], [l2]);
  }

  lemma SampleLine1(l: Bytes)
    requires l == "Via: x"
    ensures LineHeader(l) == Some(Header("Via", "x"))
  {
    assert SkipSpace(l, 0, |l|) == 0;
    assert SkipSpaceBack(l, 0, |l|) == 6;
    assert l[..3] == "Via";
    IndexOfFirst(l, ':', 3);
    assert SkipSpaceBack(l, 0, 3) == 3;
    assert SkipSpace(l, 4, 6) == 5;
    LineHeaderAt(l, 0, 3, 6);
    assert l[0..3] == "Via";
    assert l[5..6] == "x";
  }

  lemma SampleLine2(l: Bytes)
    requires l == "none"
    ensures LineHeader(l) == None
  {
    assert ':' !in l;
  }

  lemma SampleLine3(l: Bytes)
    requires l == " Tag : 1 "
    ensures LineHeader(l) == Some(Header("Tag", "1"))
  {
    assert SkipSpace(l, 0, |l|) == 1;
    assert SkipSpaceBack(l, 1, |l|) == 8;
    assert l[..5] == " Tag ";
    IndexOfFirst(l, ':', 5);
    assert IndexOf(l, ':', 1) == 5;
    assert SkipSpaceBack(l, 1, 5) == 4;
    assert SkipSpace(l, 6, 8) == 7;
    LineHeaderAt(l, 1, 5, 8);
    assert l[1..4] == "Tag";
    assert l[7..8] == "1";
  }
}

=== FILE: headers.dfy ===
/** The header parser of `sendWebhookRequest` (src/main.cpp:573-592): the
    stored header text is read one line at a time; each line is trimmed, empty
    lines are skipped, and a line whose first ':' is past its first byte gives
    a header named by the trimmed text before that colon, with the trimmed text
    after it as value. Other lines are ignored without notice.

    The loop is `ParseHeaders`; its reference is `ParsedHeaders`, which splits
    the text at every line feed and keeps the header each piece gives. */
module Headers {
  import opened Text
  import opened Optional

  datatype Header = Header(name: Bytes, value: Bytes)

  /** What every parsed header satisfies: a non-empty name without a colon,
      and name and value both without outer whitespace. */
  predicate WellFormed(h: Header) {
    && |h.name| > 0
    && IsTrimmed(h.name)
    && ':' !in h.name
    && IsTrimmed(h.value)
  }

  /** The pieces of `s` between occurrences of `sep`; a separator at either
      end gives an empty piece there. */
  function Split(s: Bytes, sep: Byte): (pieces: seq<Bytes>)
    ensures |pieces| >= 1
    decreases |s|
  {
    var k := IndexOf(s, sep, 0);
    if k == -1 then [s] else [s[..k]] + Split(s[k + 1..], sep)
  }

  /** No piece holds the separator. */
  lemma {:induction false} SplitPiecesClean(s: Bytes, sep: Byte)
    ensures forall p :: p in Split(s, sep) ==> sep !in p
    decreases |s|
  {
    var k := IndexOf(s, sep, 0);
    IndexOfFirstHit(s, sep, 0);
    if k != -1 {
      assert forall j :: 0 <= j < k ==> s[..k][j] == s[j];
      SplitPiecesClean(s[k + 1..], sep);
    }
  }

  function Join(pieces: seq<Bytes>, sep: Byte): Bytes
    requires |pieces| >= 1
  {
    if |pieces| == 1 then pieces[0] else pieces[0] + [sep] + Join(pieces[1..], sep)
  }

  /** Splitting loses nothing: joining the pieces back with the separator
      rebuilds the text. */
  lemma {:induction false} JoinSplit(s: Bytes, sep: Byte)
    ensures Join(Split(s, sep), sep) == s
    decreases |s|
  {
    var k := IndexOf(s, sep, 0);
    if k != -1 {
      JoinSplit(s[k + 1..], sep);
      assert s == s[..k] + [sep] + s[k + 1..];
    }
  }

  /** A piece that holds no separator is split off whole. */
  lemma SplitAt(a: Bytes, sep: Byte, b: Bytes)
    requires sep !in a
    ensures Split(a + [sep] + b, sep) == [a] + Split(b, sep)
  {
    var s := a + [sep] + b;
    assert s[..|a|] == a;
    IndexOfFirst(s, sep, |a|);
    assert s[|a| + 1..] == b;
  }

  lemma SplitNone(s: Bytes, sep: Byte)
    requires sep !in s
    ensures Split(s, sep) == [s]
  {
  }

  /** The header one line gives, if any, located by positions in the line:
      the text runs from `b` to `e` once the outer whitespace is skipped, the
      first colon inside `b..e` splits it, and name and value are the two
      sides with their own whitespace skipped. A line without a colon in
      `b..e`, or with one at `b`, gives none. */
  function LineHeader(line: Bytes): (h: Option<Header>)
    ensures h.Some? ==> IsTrimmed(h.value.name) && IsTrimmed(h.value.value)
  {
    var b := SkipSpace(line, 0, |line|);
    var e := SkipSpaceBack(line, b, |line|);
    var colon := IndexOf(line, ':', b);
    if colon == -1 || colon == b || colon >= e then None
    else Some(Header(line[b..SkipSpaceBack(line, b, colon)], line[SkipSpace(line, colon + 1, e)..e]))
  }

  /** A trimmed line with a colon past its first byte gives the header
      whose name and value are the trimmed text on either side of that colon
      (src/main.cpp:581-588). */
  lemma HeaderFromTrimmed(line: Bytes)
    requires |Trim(line)| > 0 && IndexOf(Trim(line), ':', 0) > 0
    ensures var t := Trim(line);
            var colon := IndexOf(t, ':', 0);
            LineHeader(line) == Some(Header(Trim(t[..colon]), Trim(t[colon + 1..])))
  {
    var b := SkipSpace(line, 0, |line|);
    var e := SkipSpaceBack(line, b, |line|);
    var c := IndexOf(line, ':', b);
    ColonInTrimmed(line);
    var t := Trim(line);
    assert t == line[b..e];
    var colon := IndexOf(t, ':', 0);
    assert colon == c - b;
    NamePart(line, b, c, e);
    var name := Trim(t[..colon]);
    assert name == line[b..SkipSpaceBack(line, b, c)];
    ValuePart(line, b, c, e);
    var value := Trim(t[colon + 1..]);
    assert value == line[SkipSpace(line, c + 1, e)..e];
    LineHeaderAt(line, b, c, e);
  }

  /** `LineHeader` once its three positions are known. */
  lemma LineHeaderAt(line: Bytes, b: nat, c: nat, e: nat)
    requires b == SkipSpace(line, 0, |line|) && e == SkipSpaceBack(line, b, |line|)
    requires c == IndexOf(line, ':', b) && b < c < e
    ensures LineHeader(line) == Some(Header(line[b..SkipSpaceBack(line, b, c)], line[SkipSpace(line, c + 1, e)..e]))
  {
  }

  /** A line that trims to nothing, or whose trimmed text has no colon or
      starts with one, gives no header (src/main.cpp:580-581). */
  lemma NoHeaderFromTrimmed(line: Bytes)
    requires |Trim(line)| == 0 || IndexOf(Trim(line), ':', 0) <= 0
    ensures LineHeader(line) == None
  {
    ColonInTrimmed(line);
  }

  /** The first colon of the trimmed line is the first colon after its
      leading whitespace, counted from the trimmed start. */
  lemma ColonInTrimmed(line: Bytes)
    ensures var b := SkipSpace(line, 0, |line|);
            var c := IndexOf(line, ':', b);
            IndexOf(Trim(line), ':', 0) == (if c == -1 then -1 else c - b)
            && (c != -1 ==> c < SkipSpaceBack(line, b, |line|))
  {
    var b := SkipSpace(line, 0, |line|);
    var e := SkipSpaceBack(line, b, |line|);
    SkipSpaceBackAll(line, b, |line|);
    IndexOfSlice(line, ':', b, e, b);
  }

  lemma NamePart(line: Bytes, b: nat, c: nat, e: nat)
    requires b < c < e <= |line| && !IsSpace(line[b])
    ensures Trim(line[b..e][..c - b]) == line[b..SkipSpaceBack(line, b, c)]
  {
    assert line[b..e][..c - b] == line[b..c];
    TrimRange(line, b, c);
  }

  lemma ValuePart(line: Bytes, b: nat, c: nat, e: nat)
    requires b <= c < e <= |line| && !IsSpace(line[e - 1])
    ensures Trim(line[b..e][c - b + 1..]) == line[SkipSpace(line, c + 1, e)..e]
  {
    assert line[b..e][c - b + 1..] == line[c + 1..e];
    TrimRange(line, c + 1, e);
  }

  /** A line gives a header exactly when its trimmed text holds a colon that
      is not its first byte. */
  lemma LineHeaderWhen(line: Bytes)
    ensures LineHeader(line).Some? <==> ':' in Trim(line) && Trim(line)[0] != ':'
  {
    var b := SkipSpace(line, 0, |line|);
    var c := IndexOf(line, ':', b);
    var t := Trim(line);
    ColonInTrimmed(line);
    IndexOfFirstHit(t, ':', 0);
    if c == -1 {
      assert ':' !in t;
    }
  }

  /** Every header a line gives is well formed. */
  lemma LineHeaderWellFormed(line: Bytes)
    ensures LineHeader(line).Some? ==> WellFormed(LineHeader(line).value)
  {
    var b := SkipSpace(line, 0, |line|);
    var e := SkipSpaceBack(line, b, |line|);
    var c := IndexOf(line, ':', b);
    ColonInTrimmed(line);
    if c != -1 && c > b {
      IndexOfFirstHit(line, ':', b);
      NameWellFormed(line, b, c);
      ValueTrimmed(line, c + 1, e);
    }
  }

  /** The name side: starts at a non-space byte before the colon, so it is
      non-empty, trimmed and colon-free. */
  lemma NameWellFormed(line: Bytes, b: nat, c: nat)
    requires b < c <= |line| && !IsSpace(line[b])
    requires forall j :: b <= j < c ==> line[j] != ':'
    ensures var name := line[b..SkipSpaceBack(line, b, c)];
            |name| > 0 && IsTrimmed(name) && ':' !in name
  {
    SkipSpaceBackAll(line, b, c);
    var name := line[b..SkipSpaceBack(line, b, c)];
    assert forall j :: 0 <= j < |name| ==> name[j] == line[b + j];
  }

  /** The value side ends where the trimmed line ends, on a non-space byte. */
  lemma ValueTrimmed(line: Bytes, lo: nat, e: nat)
    requires lo <= e <= |line| && (lo < e ==> !IsSpace(line[e - 1]))
    ensures IsTrimmed(line[SkipSpace(line, lo, e)..e])
  {
  }

  /** A line without a line feed gives a header without one. */
  lemma LineHeaderSingleLine(line: Bytes)
    requires '\n' !in line
    ensures LineHeader(line).Some? ==> '\n' !in LineHeader(line).value.name && '\n' !in LineHeader(line).value.value
  {
  }

  /** What one line contributes: its value, or nothing. */
  function Found<T>(o: Option<T>): (vs: seq<T>) {
    match o case Some(v) => [v] case None => []
  }

  /** The values `parse` gives for `lines`, in line order, leaving out the
      lines it gives nothing for. */
  function Collect<T>(parse: Bytes -> Option<T>, lines: seq<Bytes>): (out: seq<T>)
    ensures |out| <= |lines|
  {
    if |lines| == 0 then []
    else Found(parse(lines[0])) + Collect(parse, lines[1..])
  }

  /** Collecting from two runs of lines one after the other. */
  lemma {:induction false} CollectAppend<T>(parse: Bytes -> Option<T>, a: seq<Bytes>, b: seq<Bytes>)
    ensures Collect(parse, a + b) == Collect(parse, a) + Collect(parse, b)
  {
    if |a| > 0 {
      assert (a + b)[0] == a[0];
      assert (a + b)[1..] == a[1..] + b;
      CollectAppend(parse, a[1..], b);
    } else {
      assert a + b == b;
    }
  }

  /** The headers a sequence of lines gives, in line order. */
  function HeadersOf(lines: seq<Bytes>): (hs: seq<Header>)
  {
    Collect(LineHeader, lines)
  }

  /** Every header parsed from any lines is well formed. */
  lemma {:induction false} HeadersWellFormed(lines: seq<Bytes>)
    ensures forall h :: h in HeadersOf(lines) ==> WellFormed(h)
  {
    if |lines| > 0 {
      LineHeaderWellFormed(lines[0]);
      HeadersWellFormed(lines[1..]);
    }
  }

  /** One line contributes the header it gives, or nothing. */
  lemma HeadersOfOne(line: Bytes)
    ensures HeadersOf([line]) == Found(LineHeader(line))
  {
    assert [line][1..] == [];
  }

  lemma HeadersOfAppend(a: seq<Bytes>, b: seq<Bytes>)
    ensures HeadersOf(a + b) == HeadersOf(a) + HeadersOf(b)
  {
    CollectAppend(LineHeader, a, b);
  }

  /** Reference meaning of the stored header text. */
  function ParsedHeaders(text: Bytes): seq<Header> {
    HeadersOf(Split(text, '\n'))
  }

  /** No header name or value ever holds a line feed. */
  lemma ParsedHeadersSingleLine(text: Bytes)
    ensures forall h :: h in ParsedHeaders(text) ==> '\n' !in h.name && '\n' !in h.value
  {
    SplitPiecesClean(text, '\n');
    LinesGiveSingleLineHeaders(Split(text, '\n'));
  }

  lemma {:induction false} LinesGiveSingleLineHeaders(lines: seq<Bytes>)
    requires forall p :: p in lines ==> '\n' !in p
    ensures forall h :: h in HeadersOf(lines) ==> '\n' !in h.name && '\n' !in h.value
  {
    if |lines| > 0 {
      assert lines[0] in lines;
      assert forall p :: p in lines[1..] ==> p in lines;
      LineHeaderSingleLine(lines[0]);
      LinesGiveSingleLineHeaders(lines[1..]);
    }
  }

  /** Where the line that starts at `i` ends: the next line feed, or the end
      of the text (src/main.cpp:576-577). */
  function LineEnd(text: Bytes, i: nat): (e: nat)
    requires i < |text|
    ensures i <= e <= |text|
    ensures e < |text| ==> text[e] == '\n'
  {
    var k := IndexOf(text, '\n', i);
    if k == -1 then |text| else k
  }

  /** The lines the loop visits from position `i` on, in order. */
  function LinesFrom(text: Bytes, i: nat): seq<Bytes>
    decreases |text| + 1 - i
  {
    if i >= |text| then []
    else [text[i..LineEnd(text, i)]] + LinesFrom(text, LineEnd(text, i) + 1)
  }

  /** The text the loop has still to read once it is at position `i`. */
  function Rest(text: Bytes, i: nat): (r: Bytes)
    ensures |r| <= |text|
  {
    if i <= |text| then text[i..] else []
  }

  /** The lines the loop visits in `rest`: none once the text is used up,
      otherwise the bytes up to the next line feed (or the end), then the
      lines after that line feed. Unlike `Split`, an empty text and a final
      line feed give no empty line. */
  function LinesOf(rest: Bytes): (lines: seq<Bytes>)
    decreases |rest|
  {
    if |rest| == 0 then []
    else
      var k := IndexOf(rest, '\n', 0);
      if k == -1 then [rest] else [rest[..k]] + LinesOf(rest[k + 1..])
  }
}

=== FILE: json_escape.dfy ===
/** `escapeJsonString`: escapes a byte string for use inside a JSON string
    literal, in the form that section 7 of RFC 8259 describes. Every byte
    becomes one, two or six printable ASCII characters, in input order. The
    decoder `Unescape` reads the escape forms that section 7 allows (for code
    points below 256, since the result is a byte string) and is the partner
    that the round-trip lemma relates to the escaper. */
module JsonEscape {
  import opened Text
  import opened Optional

  /** Printable ASCII, the range `' '..'~'` that passes through unchanged. */
  predicate IsPrintable(c: Byte) {
    ' ' <= c <= '~'
  }

  predicate AllPrintable(s: Bytes) {
    forall k :: 0 <= k < |s| ==> IsPrintable(s[k])
  }

  predicate IsHexDigit(c: Byte) {
    '0' <= c <= '9' || 'a' <= c <= 'f' || 'A' <= c <= 'F'
  }

  function HexValue(c: Byte): (n: nat)
    requires IsHexDigit(c)
    ensures n < 16
  {
    if '0' <= c <= '9' then c as int - '0' as int
    else if 'a' <= c <= 'f' then c as int - 'a' as int + 10
    else c as int - 'A' as int + 10
  }

  /** The lower-case hexadecimal digit `printf("%x")` writes for `n`. */
  function HexDigit(n: nat): (c: Byte)
    requires n < 16
    ensures IsHexDigit(c) && IsPrintable(c) && HexValue(c) == n
    ensures !('A' <= c <= 'F')
  {
    if n < 10 then ('0' as int + n) as char else ('a' as int + n - 10) as char
  }

  /** The escape of one byte: the seven named escapes, the byte itself when it
      is printable, and `\u00XX` (lower-case hex) for every other byte. */
  function EscapeByte(c: Byte): (r: Bytes)
    ensures |r| == 1 || |r| == 2 || |r| == 6
    ensures AllPrintable(r)
    ensures |r| == 1 <==> IsPrintable(c) && c != '\\' && c != '"'
    ensures |r| == 1 ==> r[0] == c
    ensures |r| > 1 ==> r[0] == '\\'
    ensures |r| == 6 <==> !IsPrintable(c) && !(c as int in {8, 9, 10, 12, 13})
    ensures |r| == 6 ==> && r[..4] == "\\u00"
                         && IsHexDigit(r[4]) && !('A' <= r[4] <= 'F')
                         && IsHexDigit(r[5]) && !('A' <= r[5] <= 'F')
                         && HexValue(r[4]) * 16 + HexValue(r[5]) == c as int
  {
    if c == '\\' then "\\\\"
    else if c == '"' then "\\\""
    else if c as int == 8 then "\\b"
    else if c as int == 12 then "\\f"
    else if c == '\n' then "\\n"
    else if c == '\r' then "\\r"
    else if c == '\t' then "\\t"
    else if IsPrintable(c) then [c]
    else ['\\', 'u', '0', '0', HexDigit(c as int / 16), HexDigit(c as int % 16)]
  }

  /** `escapeJsonString`: the per-byte escapes concatenated in input order. */
  function EscapeJson(s: Bytes): (r: Bytes)
    ensures AllPrintable(r)
    ensures |s| <= |r| <= 6 * |s|
  {
    if |s| == 0 then [] else EscapeByte(s[0]) + EscapeJson(s[1..])
  }

  /** Escaping distributes over concatenation: each input byte is escaped on
      its own, and the pieces appear in the order of the input. */
  lemma {:induction false} EscapeJsonAppend(a: Bytes, b: Bytes)
    ensures EscapeJson(a + b) == EscapeJson(a) + EscapeJson(b)
  {
    if |a| > 0 {
      assert (a + b)[1..] == a[1..] + b;
      EscapeJsonAppend(a[1..], b);
    } else {
      assert a + b == b;
    }
  }

  /** The byte a two-character escape `\x` stands for, per section 7 of
      RFC 8259. */
  function ShortEscape(x: Byte): Option<Byte> {
    if x == '"' then Some('"')
    else if x == '\\' then Some('\\')
    else if x == '/' then Some('/')
    else if x == 'b' then Some(8 as char)
    else if x == 'f' then Some(12 as char)
    else if x == 'n' then Some('\n')
    else if x == 'r' then Some('\r')
    else if x == 't' then Some('\t')
    else None
  }

  function Prepend(c: Byte, rest: Option<Bytes>): Option<Bytes> {
    match rest
    case None => None
    case Some(t) => Some([c] + t)
  }

  /** Decodes the body of a JSON string (the text between the quotes) into
      bytes: an unescaped byte may be anything except a quote, a backslash or
      a control byte below 0x20; `\uXXXX` is accepted for values below 256.
      `None` means the text is not a well-formed JSON string body. */
  function Unescape(r: Bytes): (o: Option<Bytes>)
    decreases |r|
  {
    if |r| == 0 then Some([])
    else if r[0] == '\\' then
      if |r| >= 2 && ShortEscape(r[1]).Some? then
        Prepend(ShortEscape(r[1]).value, Unescape(r[2..]))
      else if |r| >= 6 && r[1] == 'u' && IsHexDigit(r[2]) && IsHexDigit(r[3])
              && IsHexDigit(r[4]) && IsHexDigit(r[5])
              && HexValue(r[2]) == 0 && HexValue(r[3]) == 0 then
        Prepend((HexValue(r[4]) * 16 + HexValue(r[5])) as char, Unescape(r[6..]))
      else None
    else if r[0] == '"' || r[0] as int < 0x20 then None
    else Prepend(r[0], Unescape(r[1..]))
  }

  /** Decoding an escaped byte followed by anything yields that byte followed
      by the decoding of the rest. */
  lemma UnescapeByte(c: Byte, rest: Bytes)
    ensures Unescape(EscapeByte(c) + rest) == Prepend(c, Unescape(rest))
  {
    var e := EscapeByte(c);
    var r := e + rest;
    if |e| == 1 {
      assert r[1..] == rest;
    } else if |e| == 2 {
      assert r[2..] == rest;
    } else {
      UnescapeSix(e, c, rest);
    }
  }

  /** Decoding a `\u00XX` escape followed by anything yields the byte the two
      hex digits spell followed by the decoding of the rest. */
  lemma UnescapeSix(e: Bytes, c: Byte, rest: Bytes)
    requires |e| == 6 && e[..4] == "\\u00" && IsHexDigit(e[4]) && IsHexDigit(e[5])
    requires HexValue(e[4]) * 16 + HexValue(e[5]) == c as int
    ensures Unescape(e + rest) == Prepend(c, Unescape(rest))
  {
    var r := e + rest;
    assert r[6..] == rest;
    assert r[..6] == e;
    assert r[1] == e[..4][1] == 'u' && r[2] == r[3] == '0';
  }

  /** Round trip: decoding the escaper's output gives back the input, so the
      output is always a well-formed JSON string body and no two inputs
      escape to the same text. */
  lemma {:induction false} UnescapeEscape(s: Bytes)
    ensures Unescape(EscapeJson(s)) == Some(s)
  {
    if |s| > 0 {
      UnescapeEscape(s[1..]);
      UnescapeByte(s[0], EscapeJson(s[1..]));
      assert [s[0]] + s[1..] == s;
    }
  }

  lemma EscapeJsonInjective(a: Bytes, b: Bytes)
    requires EscapeJson(a) == EscapeJson(b)
    ensures a == b
  {
    UnescapeEscape(a);
    UnescapeEscape(b);
  }
}

=== FILE: optional.dfy ===
/** An optional value, for results the firmware may or may not produce. */
module Optional {

  datatype Option<+T> = None | Some(value: T)
}

=== FILE: settings.dfy ===
/** The device configuration: the six values the firmware keeps in RAM, how
    they are read from the `Preferences` store at boot (src/main.cpp:162-172)
    and how the provisioning form writes them back (src/main.cpp:465-524).
    The store is a map from key to string; a missing key reads as the
    default given to `getString`. */
module Settings {
  import opened Text
  import opened Optional

  datatype Config = Config(
    ssid: Bytes,
    password: Bytes,
    webhookUrl: Bytes,
    webhookMethod: Bytes,
    webhookHeaders: Bytes,
    webhookPayload: Bytes)

  /** The `Preferences` namespace "grotbot": key to stored string. */
  type Store = map<Bytes, Bytes>

  /** The arguments of the submitted form: field name to value. */
  type Form = map<Bytes, Bytes>

  const KEY_SSID: Bytes := "ssid"
  const KEY_PASSWORD: Bytes := "password"
  const KEY_WEBHOOK: Bytes := "webhook"
  const KEY_METHOD: Bytes := "webhook_method"
  const KEY_HEADERS: Bytes := "webhook_headers"
  const KEY_PAYLOAD: Bytes := "webhook_payload"

  /** The six keys the firmware reads and writes; the form uses the same
      names for its fields. */
  function Keys(): set<Bytes> {
    {KEY_SSID, KEY_PASSWORD, KEY_WEBHOOK, KEY_METHOD, KEY_HEADERS, KEY_PAYLOAD}
  }

  /** `Preferences::getString(key, default)`. */
  function GetString(store: Store, key: Bytes, default: Bytes): (v: Bytes)
    ensures key !in store ==> v == default
    ensures key in store ==> v == store[key]
  {
    if key in store then store[key] else default
  }

  /** A `putString` followed by a `getString`: the key just written reads
      back the value written, whatever the default, and every other key
      reads as before. */
  lemma GetStringPut(store: Store, k: Bytes, v: Bytes, key: Bytes, default: Bytes)
    ensures GetString(store[k := v], key, default) == if key == k then v else GetString(store, key, default)
  {
  }

  /** `WebServer::arg(name)`: the value of the field, or the empty string
      when the form has no such field. */
  function Arg(form: Form, name: Bytes): (v: Bytes)
    ensures name !in form ==> v == []
    ensures name in form ==> v == form[name]
  {
    GetString(form, name, [])
  }

  /** The values the three trimmed-at-load fields must have for a load to
      give them back unchanged. */
  predicate CredentialsTrimmed(cfg: Config) {
    IsTrimmed(cfg.ssid) && IsTrimmed(cfg.password) && IsTrimmed(cfg.webhookUrl)
  }

  predicate AllTrimmed(cfg: Config) {
    && CredentialsTrimmed(cfg)
    && IsTrimmed(cfg.webhookMethod)
    && IsTrimmed(cfg.webhookHeaders)
    && IsTrimmed(cfg.webhookPayload)
  }

  /** The load block of `setup`: every value is read with its default (the
      method defaults to "GET", the rest to the empty string), and only SSID,
      password and webhook URL are trimmed afterwards. */
  function Load(store: Store): (cfg: Config)
    ensures CredentialsTrimmed(cfg)
    ensures KEY_SSID in store ==> cfg.ssid == Trim(store[KEY_SSID])
    ensures KEY_PASSWORD in store ==> cfg.password == Trim(store[KEY_PASSWORD])
    ensures KEY_WEBHOOK in store ==> cfg.webhookUrl == Trim(store[KEY_WEBHOOK])
    ensures KEY_SSID !in store ==> cfg.ssid == []
    ensures KEY_PASSWORD !in store ==> cfg.password == []
    ensures KEY_WEBHOOK !in store ==> cfg.webhookUrl == []
    ensures KEY_METHOD !in store ==> cfg.webhookMethod == "GET"
    ensures KEY_METHOD in store ==> cfg.webhookMethod == store[KEY_METHOD]
    ensures KEY_HEADERS !in store ==> cfg.webhookHeaders == []
    ensures KEY_HEADERS in store ==> cfg.webhookHeaders == store[KEY_HEADERS]
    ensures KEY_PAYLOAD !in store ==> cfg.webhookPayload == []
    ensures KEY_PAYLOAD in store ==> cfg.webhookPayload == store[KEY_PAYLOAD]
  {
    Config(
      Trim(GetString(store, KEY_SSID, [])),
      Trim(GetString(store, KEY_PASSWORD, [])),
      Trim(GetString(store, KEY_WEBHOOK, [])),
      GetString(store, KEY_METHOD, "GET"),
      GetString(store, KEY_HEADERS, []),
      GetString(store, KEY_PAYLOAD, []))
  }

  /** The values `handleSave` accepts: `None` when the SSID, password or
      webhook field is missing, otherwise all six fields trimmed, a missing
      optional field counting as the empty string. */
  function SaveForm(form: Form): (r: Option<Config>)
    ensures r.Some? <==> KEY_SSID in form && KEY_PASSWORD in form && KEY_WEBHOOK in form
    ensures r.Some? ==> AllTrimmed(r.value)
    ensures r.Some? ==> r.value.ssid == Trim(form[KEY_SSID])
    ensures r.Some? ==> r.value.password == Trim(form[KEY_PASSWORD])
    ensures r.Some? ==> r.value.webhookUrl == Trim(form[KEY_WEBHOOK])
    ensures r.Some? && KEY_METHOD in form ==> r.value.webhookMethod == Trim(form[KEY_METHOD])
    ensures r.Some? && KEY_HEADERS in form ==> r.value.webhookHeaders == Trim(form[KEY_HEADERS])
    ensures r.Some? && KEY_PAYLOAD in form ==> r.value.webhookPayload == Trim(form[KEY_PAYLOAD])
    ensures r.Some? && KEY_METHOD !in form ==> r.value.webhookMethod == []
    ensures r.Some? && KEY_HEADERS !in form ==> r.value.webhookHeaders == []
    ensures r.Some? && KEY_PAYLOAD !in form ==> r.value.webhookPayload == []
  {
    if KEY_SSID in form && KEY_PASSWORD in form && KEY_WEBHOOK in form then
      Some(Config(
        Trim(Arg(form, KEY_SSID)),
        Trim(Arg(form, KEY_PASSWORD)),
        Trim(Arg(form, KEY_WEBHOOK)),
        Trim(Arg(form, KEY_METHOD)),
        Trim(Arg(form, KEY_HEADERS)),
        Trim(Arg(form, KEY_PAYLOAD))))
    else None
  }

  /** The six `putString` calls of `handleSave`. */
  function Persist(store: Store, cfg: Config): (s: Store)
    ensures forall k :: k in s <==> k in store || k in Keys()
    ensures forall k :: k in store && k !in Keys() ==> s[k] == store[k]
  {
    store[KEY_SSID := cfg.ssid][KEY_PASSWORD := cfg.password][KEY_WEBHOOK := cfg.webhookUrl]
         [KEY_METHOD := cfg.webhookMethod][KEY_HEADERS := cfg.webhookHeaders][KEY_PAYLOAD := cfg.webhookPayload]
  }

  /** Every key the firmware writes holds the value it was given. */
  lemma PersistWrites(store: Store, cfg: Config)
    ensures var s := Persist(store, cfg);
            && s[KEY_SSID] == cfg.ssid && s[KEY_PASSWORD] == cfg.password
            && s[KEY_WEBHOOK] == cfg.webhookUrl && s[KEY_METHOD] == cfg.webhookMethod
            && s[KEY_HEADERS] == cfg.webhookHeaders && s[KEY_PAYLOAD] == cfg.webhookPayload
  {
  }

  /** Round trip: loading what was persisted gives the configuration back,
      provided the three values that loading trims are already trimmed. */
  lemma LoadPersist(store: Store, cfg: Config)
    requires CredentialsTrimmed(cfg)
    ensures Load(Persist(store, cfg)) == cfg
  {
    PersistWrites(store, cfg);
    TrimOfTrimmed(cfg.ssid);
    TrimOfTrimmed(cfg.password);
    TrimOfTrimmed(cfg.webhookUrl);
  }

  /** A configuration accepted by the form survives a save and a reload
      unchanged. */
  lemma SaveThenLoad(store: Store, form: Form)
    requires SaveForm(form).Some?
    ensures Load(Persist(store, SaveForm(form).value)) == SaveForm(form).value
  {
    LoadPersist(store, SaveForm(form).value);
  }

  /** A later save replaces every value an earlier one wrote. */
  lemma PersistOverwrites(store: Store, a: Config, b: Config)
    ensures Persist(Persist(store, a), b) == Persist(store, b)
  {
    var l := Persist(Persist(store, a), b);
    var r := Persist(store, b);
    assert forall k :: k in l <==> k in r;
    PersistWrites(Persist(store, a), b);
    PersistWrites(store, b);
    assert forall k :: k in l ==> l[k] == r[k];
  }

  /** Loading a configuration that has never been saved. */
  lemma LoadEmpty()
    ensures Load(map[]) == Config([], [], [], "GET", [], [])
  {
    assert Trim([]) == [];
  }

  /** A form without a method field stores the empty method, not "GET". */
  lemma SaveWithoutMethod(form: Form)
    requires KEY_SSID in form && KEY_PASSWORD in form && KEY_WEBHOOK in form
    requires KEY_METHOD !in form
    ensures SaveForm(form).Some? && SaveForm(form).value.webhookMethod == []
  {
    assert Trim([]) == [];
  }
}

=== FILE: text.dfy ===
/** Byte strings and the Arduino `String` operations the firmware relies on:
    `trim`, `indexOf(char, from)`, `substring` and `equalsIgnoreCase`.
    An Arduino `String` holds bytes; a `Byte` is a character whose code fits in
    eight bits, so that string literals stay readable. */
module Text {

  type Byte = c: char | c as int < 256
  type Bytes = seq<Byte>

  /** C `isspace` in the "C" locale: space, and the controls 0x09 through 0x0D
      (tab, line feed, vertical tab, form feed, carriage return). */
  predicate IsSpace(c: Byte) {
    c == ' ' || (9 <= c as int <= 13)
  }

  predicate AllSpace(s: Bytes) {
    forall k :: 0 <= k < |s| ==> IsSpace(s[k])
  }

  /** A string with no whitespace at either end. */
  predicate IsTrimmed(s: Bytes) {
    |s| == 0 || (!IsSpace(s[0]) && !IsSpace(s[|s| - 1]))
  }

  /** The first position in `lo..hi` whose byte is not whitespace, or `hi`
      when there is none: where `trim` moves the start of the text to. */
  function SkipSpace(s: Bytes, lo: nat, hi: nat): (k: nat)
    requires lo <= hi <= |s|
    ensures lo <= k <= hi
    ensures k < hi ==> !IsSpace(s[k])
    decreases hi - lo
  {
    if lo < hi && IsSpace(s[lo]) then SkipSpace(s, lo + 1, hi) else lo
  }

  /** Everything `SkipSpace` passes over is whitespace. */
  lemma {:induction false} SkipSpaceAll(s: Bytes, lo: nat, hi: nat)
    requires lo <= hi <= |s|
    ensures forall j :: lo <= j < SkipSpace(s, lo, hi) ==> IsSpace(s[j])
    decreases hi - lo
  {
    if lo < hi && IsSpace(s[lo]) {
      SkipSpaceAll(s, lo + 1, hi);
    }
  }

  /** The position just past the last byte in `lo..hi` that is not
      whitespace, or `lo` when there is none: where `trim` moves the end of
      the text to. */
  function SkipSpaceBack(s: Bytes, lo: nat, hi: nat): (k: nat)
    requires lo <= hi <= |s|
    ensures lo <= k <= hi
    ensures lo < k ==> !IsSpace(s[k - 1])
    decreases hi - lo
  {
    if lo < hi && IsSpace(s[hi - 1]) then SkipSpaceBack(s, lo, hi - 1) else hi
  }

  /** Everything `SkipSpaceBack` passes over is whitespace. */
  lemma {:induction false} SkipSpaceBackAll(s: Bytes, lo: nat, hi: nat)
    requires lo <= hi <= |s|
    ensures forall j :: SkipSpaceBack(s, lo, hi) <= j < hi ==> IsSpace(s[j])
    decreases hi - lo
  {
    if lo < hi && IsSpace(s[hi - 1]) {
      SkipSpaceBackAll(s, lo, hi - 1);
    }
  }

  /** `String::trim`: moves the start past the leading whitespace and the end
      back over the trailing whitespace, and keeps what lies between. */
  function Trim(s: Bytes): (r: Bytes)
    ensures IsTrimmed(r)
    ensures |r| <= |s|
  {
    var b := SkipSpace(s, 0, |s|);
    s[b..SkipSpaceBack(s, b, |s|)]
  }

  /** What `Trim` keeps is a slice of `s`, and everything it cuts away on
      either side is whitespace. */
  lemma TrimSlice(s: Bytes)
    ensures SkipSpace(s, 0, |s|) + |Trim(s)| <= |s|
    ensures Trim(s) == s[SkipSpace(s, 0, |s|)..SkipSpace(s, 0, |s|) + |Trim(s)|]
    ensures AllSpace(s[..SkipSpace(s, 0, |s|)])
    ensures AllSpace(s[SkipSpace(s, 0, |s|) + |Trim(s)|..])
  {
    var b := SkipSpace(s, 0, |s|);
    var e := SkipSpaceBack(s, b, |s|);
    SkipSpaceAll(s, 0, |s|);
    SkipSpaceBackAll(s, b, |s|);
    assert forall k :: 0 <= k < b ==> s[..b][k] == s[k];
    assert forall k :: 0 <= k < |s| - e ==> s[e..][k] == s[e + k];
  }

  /** Trimming a slice is the same as moving its two ends inward within the
      whole text. */
  lemma TrimRange(s: Bytes, lo: nat, hi: nat)
    requires lo <= hi <= |s|
    ensures Trim(s[lo..hi]) == s[SkipSpace(s, lo, hi)..SkipSpaceBack(s, SkipSpace(s, lo, hi), hi)]
  {
    var b := SkipSpace(s, lo, hi);
    var e := SkipSpaceBack(s, b, hi);
    SkipSpaceOfSlice(s, lo, hi);
    SkipSpaceBackOfSlice(s, lo, hi, b);
    TrimSliceBetween(s, lo, hi, b, e);
  }

  /** A slice whose trim runs between `b` and `e` of the whole text trims to
      `s[b..e]`. */
  lemma TrimSliceBetween(s: Bytes, lo: nat, hi: nat, b: nat, e: nat)
    requires lo <= b <= e <= hi <= |s|
    requires SkipSpace(s[lo..hi], 0, |s[lo..hi]|) == b - lo
    requires SkipSpaceBack(s[lo..hi], b - lo, |s[lo..hi]|) == e - lo
    ensures Trim(s[lo..hi]) == s[b..e]
  {
    TrimBetween(s[lo..hi], b - lo, e - lo);
    SliceOfSlice(s, lo, hi, b, e);
  }

  /** `Trim` keeps what lies between the two positions it moves to. */
  lemma TrimBetween(t: Bytes, b: nat, e: nat)
    requires b == SkipSpace(t, 0, |t|) && b <= |t| && e == SkipSpaceBack(t, b, |t|)
    ensures Trim(t) == t[b..e]
  {
  }

  lemma SkipSpaceOfSlice(s: Bytes, lo: nat, hi: nat)
    requires lo <= hi <= |s|
    ensures SkipSpace(s[lo..hi], 0, |s[lo..hi]|) == SkipSpace(s, lo, hi) - lo
  {
    SkipSpaceShift(s, lo, hi, lo);
  }

  lemma SkipSpaceBackOfSlice(s: Bytes, lo: nat, hi: nat, b: nat)
    requires lo <= b <= hi <= |s|
    ensures SkipSpaceBack(s[lo..hi], b - lo, |s[lo..hi]|) == SkipSpaceBack(s, b, hi) - lo
  {
    SkipSpaceBackShift(s, lo, hi, b, hi);
  }

  /** A slice of a slice is a slice of the whole. */
  lemma SliceOfSlice(s: Bytes, lo: nat, hi: nat, i: nat, j: nat)
    requires lo <= i <= j <= hi <= |s|
    ensures s[lo..hi][i - lo..j - lo] == s[i..j]
  {
    var u := s[lo..hi][i - lo..j - lo];
    assert forall k :: 0 <= k < |u| ==> u[k] == s[i + k];
  }

  /** `SkipSpace` inside a slice is `SkipSpace` in the whole text, shifted. */
  lemma {:induction false} SkipSpaceShift(s: Bytes, lo: nat, hi: nat, from: nat)
    requires lo <= from <= hi <= |s|
    ensures SkipSpace(s[lo..hi], from - lo, hi - lo) == SkipSpace(s, from, hi) - lo
    decreases hi - from
  {
    if from < hi {
      assert s[lo..hi][from - lo] == s[from];
      if IsSpace(s[from]) {
        SkipSpaceShift(s, lo, hi, from + 1);
      }
    }
  }

  /** `SkipSpaceBack` inside a slice is `SkipSpaceBack` in the whole text,
      shifted. */
  lemma {:induction false} SkipSpaceBackShift(s: Bytes, lo: nat, hi: nat, from: nat, until: nat)
    requires lo <= from <= until <= hi <= |s|
    ensures SkipSpaceBack(s[lo..hi], from - lo, until - lo) == SkipSpaceBack(s, from, until) - lo
    decreases until
  {
    if from < until {
      assert s[lo..hi][until - 1 - lo] == s[until - 1];
      if IsSpace(s[until - 1]) {
        SkipSpaceBackShift(s, lo, hi, from, until - 1);
      }
    }
  }

  /** Trimming a string that has no outer whitespace leaves it unchanged. */
  lemma TrimOfTrimmed(s: Bytes)
    requires IsTrimmed(s)
    ensures Trim(s) == s
  {
    if |s| > 0 {
      assert SkipSpace(s, 0, |s|) == 0;
      assert SkipSpaceBack(s, 0, |s|) == |s|;
    }
  }

  /** `trim` is idempotent. */
  lemma TrimIdempotent(s: Bytes)
    ensures Trim(Trim(s)) == Trim(s)
  {
    TrimOfTrimmed(Trim(s));
  }

  /** Uniqueness: any slice of `s` that is trimmed and leaves only whitespace
      on both sides is exactly `Trim(s)`. */
  lemma TrimUnique(s: Bytes, i: nat, j: nat)
    requires i <= j <= |s|
    requires AllSpace(s[..i]) && AllSpace(s[j..])
    requires IsTrimmed(s[i..j]) && (i == j ==> AllSpace(s))
    ensures Trim(s) == s[i..j]
  {
    var b := SkipSpace(s, 0, |s|);
    SkipSpaceAll(s, 0, |s|);
    SkipSpaceBackAll(s, b, |s|);
    if i < j {
      assert forall k :: 0 <= k < i ==> IsSpace(s[..i][k]);
      assert b == i;
      assert forall k :: j <= k < |s| ==> s[k] == s[j..][k - j];
      assert SkipSpaceBack(s, b, |s|) == j;
    } else {
      assert forall k :: 0 <= k < |s| ==> IsSpace(s[k]);
    }
  }

  /** `String::indexOf(c, from)`: the first position at or after `from` that
      holds `c`, or -1 when there is none (also when `from` is past the end). */
  function IndexOf(s: Bytes, c: Byte, from: nat): (k: int)
    ensures k == -1 || (from <= k < |s| && s[k] == c)
    decreases |s| - from
  {
    if from >= |s| then -1
    else if s[from] == c then from
    else IndexOf(s, c, from + 1)
  }

  /** `indexOf` finds the first occurrence: no byte between `from` and the
      answer (or the end, when there is none) is `c`. */
  lemma {:induction false} IndexOfFirstHit(s: Bytes, c: Byte, from: nat)
    ensures forall j :: from <= j < |s| && (IndexOf(s, c, from) == -1 || j < IndexOf(s, c, from)) ==> s[j] != c
    decreases |s| - from
  {
    if from < |s| && s[from] != c {
      IndexOfFirstHit(s, c, from + 1);
    }
  }

  /** A byte whose first occurrence is at `k` is found at `k`. */
  lemma IndexOfFirst(s: Bytes, c: Byte, k: nat)
    requires k < |s| && s[k] == c && c !in s[..k]
    ensures IndexOf(s, c, 0) == k
  {
    IndexOfFirstHit(s, c, 0);
    assert forall j :: 0 <= j < k ==> s[j] == s[..k][j];
  }

  /** Searching a slice is searching the whole text from the slice's start,
      shifted, where a hit at or past the slice's end counts as none. */
  lemma {:induction false} IndexOfSlice(s: Bytes, c: Byte, lo: nat, hi: nat, from: nat)
    requires lo <= from <= hi <= |s|
    ensures IndexOf(s[lo..hi], c, from - lo)
         == (if IndexOf(s, c, from) == -1 || IndexOf(s, c, from) >= hi then -1 else IndexOf(s, c, from) - lo)
    decreases hi - from
  {
    if from < hi {
      assert s[lo..hi][from - lo] == s[from];
      if s[from] != c {
        IndexOfSlice(s, c, lo, hi, from + 1);
      }
    } else if IndexOf(s, c, from) != -1 {
      assert IndexOf(s, c, from) >= hi;
    }
  }

  /** Searching from `from` in `s` is searching from 0 in `s[from..]`,
      shifted. */
  lemma IndexOfShift(s: Bytes, c: Byte, from: nat)
    requires from <= |s|
    ensures IndexOf(s, c, from) == (if IndexOf(s[from..], c, 0) == -1 then -1 else from + IndexOf(s[from..], c, 0))
  {
    assert s[from..|s|] == s[from..];
    IndexOfSlice(s, c, from, |s|, from);
  }

  /** C `tolower` in the "C" locale: only 'A'..'Z' change. */
  function ToLower(c: Byte): (r: Byte)
    ensures 'A' <= c <= 'Z' ==> r as int == c as int + 32
    ensures !('A' <= c <= 'Z') ==> r == c
  {
    if 'A' <= c <= 'Z' then (c as int + 32) as char else c
  }

  /** Two bytes agree after `tolower` exactly when they are equal or are the
      upper- and lower-case forms of one letter. */
  lemma ToLowerCaseless(a: Byte, b: Byte)
    ensures ToLower(a) == ToLower(b) <==>
              || a == b
              || ('a' <= a <= 'z' && a as int - b as int == 32)
              || ('a' <= b <= 'z' && b as int - a as int == 32)
  {
  }

  /** `String::equalsIgnoreCase`: equal lengths and equal bytes after `tolower`. */
  function EqualsIgnoreCase(a: Bytes, b: Bytes): (r: bool)
    ensures r <==> |a| == |b| && forall k :: 0 <= k < |a| ==> ToLower(a[k]) == ToLower(b[k])
  {
    if |a| != |b| then false
    else if |a| == 0 then true
    else ToLower(a[0]) == ToLower(b[0]) && EqualsIgnoreCase(a[1..], b[1..])
  }
}

=== FILE: webhook.dfy ===
/** What `sendWebhookRequest` sends (src/main.cpp:556-617), with the HTTP
    exchange itself left to the network: nothing when the URL is empty,
    otherwise a request to the URL carrying the parsed headers, as a POST with
    the stored payload when the method reads "POST" in any letter case, and
    as a bodiless GET for every other method text. */
module Webhook {
  import opened Text
  import opened Optional
  import opened Headers
  import opened HeaderParser
  import opened Settings

  datatype Method = Get | Post(payload: Bytes)

  datatype Request = Request(url: Bytes, headers: seq<Header>, verb: Method)

  /** The method choice of src/main.cpp:596-604. */
  function ChooseMethod(methodText: Bytes, payload: Bytes): (m: Method)
    ensures m.Post? <==> |methodText| == 4 && forall k :: 0 <= k < 4 ==> ToLower(methodText[k]) == "post"[k]
    ensures m.Post? ==> m.payload == payload
  {
    if EqualsIgnoreCase(methodText, "POST") then Post(payload) else Get
  }

  /** The request a dispatch sends for `cfg`, or `None` when the URL is
      empty and the request is skipped. */
  function BuildRequest(cfg: Config): (r: Option<Request>)
    ensures r.None? <==> |cfg.webhookUrl| == 0
    ensures r.Some? ==> r.value.url == cfg.webhookUrl && r.value.headers == ParsedHeaders(cfg.webhookHeaders)
    ensures r.Some? ==> (r.value.verb.Post? <==> EqualsIgnoreCase(cfg.webhookMethod, "POST"))
    ensures r.Some? && r.value.verb.Post? ==> r.value.verb.payload == cfg.webhookPayload
  {
    if |cfg.webhookUrl| == 0 then None
    else Some(Request(cfg.webhookUrl, ParsedHeaders(cfg.webhookHeaders), ChooseMethod(cfg.webhookMethod, cfg.webhookPayload)))
  }

  /** The request-building part of `sendWebhookRequest`, in the order the
      firmware does it: the URL check, the header loop, the method choice. */
  method PrepareRequest(cfg: Config) returns (r: Option<Request>)
    ensures r == BuildRequest(cfg)
    ensures r.Some? ==> forall h :: h in r.value.headers ==> WellFormed(h)
  {
    if |cfg.webhookUrl| == 0 {
      return None;
    }
    var headers := ParseHeaders(cfg.webhookHeaders);
    var verb: Method;
    if EqualsIgnoreCase(cfg.webhookMethod, "POST") {
      verb := Post(cfg.webhookPayload);
    } else {
      verb := Get;
    }
    r := Some(Request(cfg.webhookUrl, headers, verb));
    HeadersWellFormed(Split(cfg.webhookHeaders, '\n'));
  }

  /** "POST" in any letter case selects a POST with the payload; the empty
      method, "GET" and a method with stray whitespace select a GET. */
  lemma MethodExamples(payload: Bytes)
    ensures ChooseMethod("POST", payload) == Post(payload)
    ensures ChooseMethod("post", payload) == Post(payload)
    ensures ChooseMethod("PoSt", payload) == Post(payload)
    ensures ChooseMethod([], payload) == Get
    ensures ChooseMethod("GET", payload) == Get
    ensures ChooseMethod("PUT", payload) == Get
    ensures ChooseMethod(" POST", payload) == Get
  {
  }

  /** A device that has never stored a method sends GET requests. */
  lemma DefaultMethodIsGet(store: Store)
    requires KEY_METHOD !in store && |Load(store).webhookUrl| > 0
    ensures BuildRequest(Load(store)).value.verb == Get
  {
  }

  /** A form submitted without a method field also leads to GET requests. */
  lemma FormWithoutMethodIsGet(form: Form)
    requires SaveForm(form).Some? && KEY_METHOD !in form
    requires |SaveForm(form).value.webhookUrl| > 0
    ensures BuildRequest(SaveForm(form).value).value.verb == Get
  {
    SaveWithoutMethod(form);
  }
}
